=== FILE: README.md ===
# Rotten core in Dafny

This project models two parts of rotten, a small Lisp whose compiled code runs on a stack machine:

- **The stack machine (`vm.py`).**
  - A `Thread` holds a cons-list of instructions, a data stack and a positional environment. The model also gives it the machine's global table.
  - It executes eight opcodes: `push`, `pop`, `access`, `closure`, `call`, `if`, `get-global` and `set-global`.
  - When its instruction list runs out, it resumes the continuation saved on the data stack.
  - It calls closures with arity checks and an optional rest parameter. It calls the fixed builtins, and it unwraps the `apply` marker.
- **The s-expression utilities (`sexp.py`).**
  - `consify` and `iter_cons_list`.
  - The writer `write_sexp`.
  - The regex tokenizer, with the recursive-descent reader `parse_exp` and `parse_exps`.

Everything is modelled as pure functions:

- `Vm.Step` is one step of a thread that is not done. It returns the next thread or a `VmError`.
- `Vm.Run` steps a thread with a fuel bound. `Vm.RunExpr` is `VM.run_expr`.
- `SexpParse.ParseExp` returns the rest of the buffer together with the expression it read.
- `SexpWrite.WriteAsWritten` is `write_sexp` as written: it returns the text the code produces, or `None` where the code raises. The limits of this are under "Left out": partial output before a raise is dropped, and a `long` whose value is in range is written.
- `SexpWrite.Write` is the corrected writer. It differs from the code only on a chain that ends in a symbol, which the code fails to write (see Findings). The rest of the model uses `Write`.

Modules:

| module | file | contents |
|---|---|---|
| `Wrappers` | wrappers.dfy | `Option`, `Result` |
| `Sexp` | sexp.dfy | the `Value` datatype, `Consify`, `IterConsList` |
| `SexpWrite` | sexp_write.dfy | `write_sexp`, Python 2 `repr` of `int` and `str`, the layout of written lists |
| `SexpParse` | sexp_parse.dfy | the token classes of `tok_re`, `ParseExp`, `ParseExps`, reader facts |
| `SexpRoundTrip` | sexp_roundtrip.dfy | reading back what the writer wrote |
| `VmBuiltins` | vm_builtins.dfy | errors, truthiness, the builtins, `make_globals` |
| `Vm` | vm.dfy | threads, globals, calls, the opcodes, `step`, `run` |
| `VmFacts` | vm_facts.dfy | properties that relate steps, calls and runs |
| `VmScenarios` | vm_scenarios.dfy | whole runs of small instruction streams |

Representation:

- Python's tuples, `Symbol`, `int`, `str`, `Closure`, the builtin functions and the `applyBuiltin` singleton become one `Sexp.Value` datatype.
  - Pairs are a single abstract `Pair`, because `vm.py` imports a `Cons` class that `sexp.py` does not define. Symbol equality (sexp.py:15) is structural equality of `Sym`.
- A data-stack entry is a `Vm.Entry`, which is either `Val(v)` or a saved `Cont(instrs, env)`.
- An exception or failed `assert` in the machine becomes a `VmBuiltins.VmError`, and one in the reader becomes a `SexpParse.ParseError`. The writers and `Sexp.IterConsList` return `None` instead.

Two behaviours of the code worth knowing:

- **Where `call` finds its function.** `call n` takes the function from below its `n` arguments. The stream `(push 3) (push 4) (get-global +) (call 2)` therefore crashes with `NotCallable` (`VmScenarios.FunctionPushedLastIsNotCalled`). The function has to be pushed first (`VmScenarios.AddThreeFour`).
- **An unclosed list.** An unmatched `(` is closed silently at the end of input (`SexpParse.UnclosedListIsClosed`). It is not an error.

## Model

| member | source | states |
|---|---|---|
| Sexp.Consify | sexp.py:21-25 | the result is a proper list; it is nil exactly for the empty sequence; its head is the first element |
| Sexp.IterConsList | sexp.py:28-33 | yields a sequence exactly when the value is a proper list (an improper tail is an error); consing that sequence back rebuilds the value |
| Sexp.IterConsify | sexp.py:21-33 | iterating the list built from any sequence yields that sequence, in order |
| Sexp.ConsifyIsInjective | sexp.py:21-25 | two sequences give the same cons-list exactly when they are equal |
| SexpWrite.NatToDecimal | sexp.py:38-39 | a non-negative integer is written as a non-empty run of digits with no leading zero |
| SexpWrite.StrRepr | sexp.py:38-39 | `repr` of a `str` exists exactly for byte strings and is enclosed in the quote character Python 2 picks |
| SexpWrite.PlainStringVerbatim | sexp.py:38-39 | printable text without quote or backslash is written verbatim between single quotes |
| SexpWrite.Write | sexp.py:35-54 | writing succeeds exactly for s-expressions (no closure, builtin, marker, out-of-range int or non-byte string); a pair is written inside parentheses |
| SexpWrite.WriteTail | sexp.py:43-52 | the rest of a chain: empty for nil, a space before each further element, `. ` before a non-nil tail |
| SexpWrite.WriteListLayout | sexp.py:40-52 | a chain of elements ending in a tail is `(`, the elements separated by single spaces, the dotted tail unless it is nil, then `)` |
| SexpWrite.WriteTailLayout | sexp.py:43-51 | the loop writes one space and the element for each further pair, then the tail text |
| SexpWrite.ProperListLayout | sexp.py:40-52 | nil is written `()`; a proper list is its written elements separated by single spaces inside parentheses |
| SexpWrite.ConsifyIsListWithNil | sexp.py:21-25 | a consified sequence is the chain of its elements ending in nil |
| SexpWrite.WriteAsWritten | sexp.py:35-54 | the code as written: wherever it produces text it agrees with `Write`, and it agrees everywhere except on a chain that ends in a symbol |
| SexpWrite.WriteTailAsWritten | sexp.py:43-52 | the tail loop as written: wherever it produces text it agrees with `WriteTail`, and it does so everywhere except on a symbol tail or a chain that ends in one |
| SexpWrite.AsWrittenFailsOnSymbolTails | sexp.py:35-54 | the code as written produces text exactly for writable values in which no chain ends in a symbol; its tail loop also fails on a bare symbol tail |
| SexpWrite.IntRepr | sexp.py:39 | `repr` of an `int` starts with a minus sign exactly when the integer is negative, and every other character is a digit |
| SexpWrite.DottedSymbolTail | sexp.py:49-51 | on `(a . b)` the code as written raises, while the evidently intended output is `(a. b)` |
| SexpParse.Span | sexp.py:66-68 | the length of the longest prefix in a character class: everything before it is in the class, the next character is not |
| SexpParse.MatchLength | sexp.py:65-72 | the token match never passes the end of the buffer, and a non-empty token starts with a blank, a paren, a symbol start, a digit, a double quote or a quote |
| SexpParse.SymbolCharIsPlain | sexp.py:68 | no symbol character is a blank, a paren, a quote or a double quote |
| SexpParse.DigitIsNotSymbolStart | sexp.py:68-69 | a digit never starts a symbol token |
| SexpParse.SymbolTokenSpan | sexp.py:65-72 | a symbol start followed by symbol characters and a delimiter is exactly one token |
| SexpParse.SymbolTokenRead | sexp.py:89-106 | a token that begins with a symbol start reads as the symbol with the token's text |
| SexpParse.ParseExp | sexp.py:84-114 | every success leaves a strict suffix of the buffer; end of input carries the empty buffer; `)` carries the buffer after the paren; a failed match carries the buffer at the bad character |
| SexpParse.ParseExps | sexp.py:117-126 | the buffer left over is a suffix that is either empty or just after a `)`; only a string literal or an unmatched character is an error |
| SexpParse.MinusDigitsIsSymbol | sexp.py:68-69 | `-` followed by digits is read as a symbol, because the symbol class is tried first |
| SexpParse.NegativeFiveIsSymbol | sexp.py:68-69 | `-5` reads as the symbol `-5` |
| SexpParse.QuoteIsBareSymbol | sexp.py:103-104 | `'` reads as the bare symbol `quote`, and the next expression is left unread |
| SexpParse.RParenCarriesRest | sexp.py:101-102 | a `)` where an expression is expected raises, carrying the buffer after the paren |
| SexpParse.StringTokenLength | sexp.py:70 | a double quote, any text without one, and a closing double quote form exactly one token |
| SexpParse.StringLiteralRefused | sexp.py:105-110 | every complete string literal, whatever follows it, is tokenized and then refused |
| SexpParse.StrayCharIsNoToken | sexp.py:89-91 | a buffer starting with a character that begins no token (not a blank, paren, quote, double quote, digit or symbol start) raises, carrying the whole buffer |
| SexpParse.UnterminatedStringIsNoToken | sexp.py:89-91 | a double quote with no closing one begins no token, so the reader raises, carrying the whole buffer |
| SexpParse.UnterminatedStringLength | sexp.py:70 | the string-literal class does not match without a closing double quote |
| SexpParse.DecimalValue | sexp.py:108 | `int(tok)` is non-positive when the token has a leading minus and non-negative otherwise |
| SexpParse.DotIsNoToken | sexp.py:89-91 | `.` begins no token, so there is no dotted-pair syntax to read |
| SexpParse.UnclosedListIsClosed | sexp.py:98-100 | a `(` followed by text with no `)` that `parse_exps` reads reads as the cons-list of those expressions, with nothing left over |
| SexpParse.UnclosedSymbolListIsClosed | sexp.py:98-100 | `(a` with no `)` reads as the list `(a)` |
| SexpParse.EndOfInputIffBlank | sexp.py:85-97 | the end-of-input error happens exactly for an empty or all-blank buffer |
| SexpParse.OpenParenStep | sexp.py:98-100 | `(` reads as the cons-list of what `parse_exps` reads after it |
| SexpParse.ExpsConsStep | sexp.py:117-126 | `parse_exps` keeps each expression, in order, and continues after it |
| SexpParse.ExpsCloseStep | sexp.py:124-125 | `parse_exps` stops at `)` and returns the buffer after it |
| SexpParse.SkipBlank | sexp.py:96-97 | a blank before a token is skipped |
| SexpRoundTrip.DecimalRoundTrip | sexp.py:38-39 | the digits written for `n` read back as `n` |
| SexpRoundTrip.IntReprReadsBack | sexp.py:39 | `int(repr(i))` is `i` for every integer, negative ones included |
| SexpRoundTrip.DigitsReadBack | sexp.py:107-108 | `int` of the digits written for a non-negative `n` is `n` |
| SexpRoundTrip.MinusDigitsReadBack | sexp.py:107-108 | `int` of a minus sign and the digits written for `n` is `-n` |
| SexpRoundTrip.ReadableIsWritable | sexp.py:35-54 | every value made of symbol-token names, non-negative integers and proper lists can be written |
| SexpRoundTrip.WrittenStart | sexp.py:35-54 | such a value is written starting with `(`, a symbol start or a digit, never a blank |
| SexpRoundTrip.ParseWritten | sexp.py:35-54 | such a value, written and followed by any text that cannot extend its last token, reads back as itself with that text left over |
| SexpRoundTrip.SymbolTokenLength | sexp.py:68 | a written symbol name is exactly one token |
| SexpRoundTrip.ParseWrittenSymbol | sexp.py:105-106 | a symbol is written as its bare name and read back as itself |
| SexpRoundTrip.DigitTokenRead | sexp.py:107-108 | a token that begins with a digit reads as the integer it spells |
| SexpRoundTrip.DigitTokenLength | sexp.py:69 | a run of digits followed by a delimiter is exactly one token |
| SexpRoundTrip.ParseWrittenInt | sexp.py:107-108 | a non-negative integer is written as its decimal digits and read back as itself |
| SexpRoundTrip.ParseWrittenList | sexp.py:40-52 | a written proper list reads back as the same list |
| SexpRoundTrip.ParseElements | sexp.py:117-126 | the written elements of a list followed by `)` read back as the list's elements |
| SexpRoundTrip.ListStep | sexp.py:98-100 | a written list reads back once its head and the rest of its elements do |
| SexpRoundTrip.ElementStep | sexp.py:117-126 | a further element of a written list reads back once it and the rest do |
| SexpRoundTrip.TailDelimited | sexp.py:44-52 | inside a written list, what follows an element starts with a space or `)` |
| SexpRoundTrip.RoundTrip | sexp.py:35-54 | `parse_exp(write_sexp(v))` gives back `v` with an empty buffer, for every value of symbols, non-negative integers and proper lists |
| SexpRoundTrip.RoundTripAsWritten | sexp.py:35-54 | on every value of symbols, non-negative integers and proper lists the writer as written agrees with the corrected one, so its output also reads back as the value |
| SexpRoundTrip.NegativeIntegerReadsAsSymbol | sexp.py:68-69 | `-5` is written as `-5`, which reads back as a symbol, so negative integers do not round-trip |
| VmBuiltins.IsNull | vm.py:9-11 | only the empty tuple is null: a pair, a symbol, an integer (even `0`) or a string (even `''`) is not |
| VmBuiltins.IsTrue | vm.py:13-16 | nil is false, while `0` and `''` are true, unlike host truthiness |
| VmBuiltins.Truthify | vm.py:18-20 | the result is `t` or nil, and it is true exactly when the host boolean is |
| VmBuiltins.Car | vm.py:48-50 | succeeds exactly on a pair and returns its first half; anything else is an error |
| VmBuiltins.Cdr | vm.py:52-54 | succeeds exactly on a pair and returns its second half; anything else is an error |
| VmBuiltins.Add | vm.py:61 | defined exactly for two integers, two strings, or an empty tuple with a pair or another empty tuple; the integer sum minus `y` is `x`; joined strings are `x` then `y`; adding nil on either side gives back the other operand; anything else is a type error |
| VmBuiltins.Sub | vm.py:62 | defined exactly for two integers; the difference plus `y` is `x` |
| VmBuiltins.ApplyBuiltin | vm.py:56-62 | a wrong argument count is an error. The predicates return `t` or nil, each `t` exactly when its test holds (`eq?` on equality). `cons` builds the pair. `car`, `cdr`, `+` and `-` are the functions above |
| VmBuiltins.MakeGlobals | vm.py:64-74 | a fresh table binds exactly the ten names |
| VmBuiltins.FreshGlobalsBindings | vm.py:64-74 | `apply` is the marker and every builtin is bound under its name |
| VmBuiltins.FreshGlobalsShape | vm.py:64-74 | only `apply` is bound to the marker; every other fresh name holds a builtin |
| Vm.GetGlobal | vm.py:89-93 | a non-symbol is an error; a bound name yields its binding and an unbound name is an error |
| Vm.SetGlobal | vm.py:82-84 | succeeds exactly for a symbol. The name is then bound to the value and every other binding is kept |
| Vm.InstrsFalsy | vm.py:146 | the stream test uses host truthiness: nil is falsy and no pair is, while `0` and `''` are also falsy here although `is_true` counts them as true |
| Vm.IsDone | vm.py:133-134 | a done thread has an empty stream (`== ()`) and at most one entry. A stream of `0` or `''` is falsy but never done, and an empty stream that is not done has at least two entries |
| Vm.ResultOf | vm.py:114-117 | defined exactly for a done thread with one stack entry, which is the result |
| Vm.PushCont | vm.py:126-130 | in tail position the stack is unchanged; otherwise exactly one `Cont` of the remaining instructions and environment is pushed |
| Vm.Resume | vm.py:146-152 | succeeds exactly when the second entry is a `Cont`. The stack shrinks by one and the top value moves down onto the slot the `Cont` held. The `Cont`'s instructions and environment are restored. Fewer than two entries is an underflow and a non-`Cont` is an error |
| Vm.Unwrap | vm.py:211-213 | fails exactly when the function and all arguments are `apply` markers. Otherwise each leading marker drops one argument and the first non-marker becomes the function. The remaining arguments are a suffix of the originals |
| Vm.ValuesOf | vm.py:208-218 | the arguments unwrapped as values, position by position |
| Vm.BindArgs | vm.py:232-238 | the new environment has length arity + (1 if rest) + captured. It starts with the first `arity` arguments. With a rest parameter the next slot is the list of the remaining arguments. It ends with the captured environment |
| Vm.CallClosure | vm.py:223-243 | too few arguments, and too many without a rest parameter, are errors; otherwise it succeeds. The body becomes the instructions and a continuation is saved unless in tail position. Without a rest parameter the environment is the arguments followed by the captured one, and in every case it ends with the captured environment |
| Vm.Invoke | vm.py:215-220 | only a closure or a builtin can be called. A closure is entered with the arguments. A builtin's result is pushed. Globals never change |
| Vm.Call | vm.py:208-220 | calling is unwrapping the `apply` markers, then invoking what is left; `apply` with nothing to call is an error; globals never change |
| Vm.Push | vm.py:120-122 | the entry goes on top and nothing else changes |
| Vm.ExecPush | vm.py:168-170 | with one operand, it pushes that operand; any other operand count is an error |
| Vm.ExecPop | vm.py:171-173 | with no operands, it removes exactly the top entry. Operands are an error, and so is an empty stack |
| Vm.ExecAccess | vm.py:174-176 | succeeds exactly for one integer operand inside the environment and pushes that slot; an index outside it is an error |
| Vm.ExecClosure | vm.py:177-182 | pushes one closure and changes nothing else. The closure has the given arity and code and captures the current environment. Its rest flag is true exactly when the operand is not nil |
| Vm.ExecCall | vm.py:183-188 | `call n` with 1 <= n < stack height calls the entry below the top n with those n entries in push order; `call 0` or a too-short stack underflows |
| Vm.ExecIf | vm.py:189-196 | pops exactly the condition. It enters the `then` branch exactly when the condition is not nil, and saves the rest of the stream unless in tail position |
| Vm.ExecGetGlobal | vm.py:197-199 | succeeds exactly when the symbol is bound and pushes its current binding |
| Vm.ExecSetGlobal | vm.py:200-203 | binds the symbol to the top entry and leaves the stack, the stream and the environment as they were |
| Vm.Exec | vm.py:168-205 | an unknown opcode is an error; only `set-global` can change the globals |
| Vm.StepInstr | vm.py:160-167 | a non-cons instruction, a non-symbol opcode and an improper operand list are errors; only `set-global` changes the globals |
| Vm.Step | vm.py:144-157 | with the stream exhausted, a step resumes a continuation. A stream that is not a pair is an error. Otherwise the head instruction runs on the rest of the stream. Only `set-global` changes the globals, and no step unbinds a name |
| Vm.Iterate | vm.py:136-141 | a finished run ends on a done thread, a done thread halts at once, and a run out of fuel stops on a thread that is not done |
| Vm.Run | vm.py:136-141 | a run halts only on a done thread and stops with no fuel. The first failing step ends it with that error and the globals as they were |
| Vm.RunExpr | vm.py:99-102 | a result is the single entry a halted run leaves; a run out of fuel has none; the globals are those the run leaves, crash or not |
| VmFacts.ResumeInvertsPushCont | vm.py:126-152 | resuming the continuation a call saved brings back the caller's stream, stack and environment, with the callee's value on top |
| VmFacts.PopUndoesPush | vm.py:168-173 | `pop` after `push` gives back the original thread |
| VmFacts.StepRunsInstr | vm.py:155-167 | a step on a well-formed instruction runs its opcode on its operands, with the stream advanced |
| VmFacts.CallTakesTopN | vm.py:183-188 | with n >= 1, the top n entries are the arguments in push order and the entry below them is the function |
| VmFacts.CallZeroUnderflows | vm.py:184-187 | `call 0` takes the whole stack as arguments and finds no function |
| VmFacts.ApplyChain | vm.py:211-213 | a chain of `apply` markers strips one leading argument per marker |
| VmFacts.ApplyIsTransparent | vm.py:211-213 | calling `apply` with `[f, a1..ak]` is calling `f` with `[a1..ak]`, without unpacking a list |
| VmFacts.ApplyWithNothing | vm.py:211-212 | `apply` with no arguments is an error |
| VmFacts.TailCallSavesNothing | vm.py:223-243 | a closure call in tail position passes the caller's stack on unchanged |
| VmFacts.SetThenGet | vm.py:197-203 | `set-global s` then `get-global s` leaves two copies of the value on top and binds `s` |
| VmFacts.GetGlobalIsLate | vm.py:197-199 | `get-global` reads the binding in force when it runs |
| VmFacts.SetGlobalIsLocal | vm.py:82-93 | binding one name leaves every other lookup as it was, and the name now yields the value |
| VmFacts.IterateFuelMonotone | vm.py:136-141 | more fuel does not change a run that already stopped |
| VmFacts.RunFuelMonotone | vm.py:136-141 | more fuel does not change a machine run that already halted or crashed |
| VmFacts.IterateKeepsBindings | vm.py:136-141 | if no step unbinds a name, neither does a run |
| VmFacts.RunKeepsBindings | vm.py:82-84 | every global bound at the start of a run is still bound at its end, crash or not |
| VmFacts.RunAdvance | vm.py:136-141 | a run from a thread is a run from its successor with one unit of fuel less |
| VmFacts.PushStep | vm.py:168-170 | `push x` puts `x` on top and advances the stream |
| VmFacts.GetGlobalStep | vm.py:197-199 | `get-global` of a bound name pushes its binding |
| VmFacts.NativeCall | vm.py:217-218 | calling a builtin on values pushes its result onto the stack below the call |
| VmFacts.AccessStep | vm.py:174-176 | `access n` pushes the `n`th environment slot |
| VmFacts.ClosureStep | vm.py:177-182 | `closure` pushes a closure over the current environment with the rest flag given by its operand |
| VmFacts.IfStep | vm.py:189-196 | `if` pops the condition, saves the rest of the stream and enters the branch it selects |
| VmFacts.ClosureCall | vm.py:215-216 | calling a closure on values is entering it, error or not |
| VmScenarios.AddThreeFour | vm.py:99-102 | `(get-global +) (push 3) (push 4) (call 2)` leaves 7 and leaves the globals unchanged |
| VmScenarios.FreshMachineAddsThreeFour | vm.py:64-74 | a fresh machine runs that stream to 7 |
| VmScenarios.FunctionPushedLastIsNotCalled | vm.py:183-188 | `(push 3) (push 4) (get-global +) (call 2)` crashes because 3 is not callable |
| VmScenarios.IfPicksBranch | vm.py:189-196 | a tail `if` leaves the `then` value for any non-nil condition and the `else` value for nil |
| VmScenarios.RestParameterGathers | vm.py:223-243 | an arity-0 closure with a rest parameter receives its two arguments as the list `(1 2)` |
| VmScenarios.ContinuationResumes | vm.py:126-152 | a non-tail closure call saves a continuation, the callee's result is handed back to it, and the outer call completes to `(9 . 5)` |

## Left out

- `repl.py`: file reading and writing, stdin buffering, printing, the REPL loop and the external compiler it loads.
- `is_callable` and arbitrary host callables (vm.py:22-24, vm.py:217-218): builtins are the closed `Builtin` enumeration of the functions `make_globals` installs.
- The debug `Closure._name` hint (vm.py:85-87), the `__str__` methods, `sexp_str` and the `print` in `push_cont`: they are output only.
- The `sexp.is_sexp` assertions in `is_null` and `is_true` (vm.py:10, vm.py:14): `sexp.is_sexp` is not part of this model, since `sexp.py` does not define it. Truthiness is "not nil".
- `VM.run_body` (vm.py:95-97) is `Vm.Run` with the result dropped. The host program's mutable stack and environment are values here.
- The Python regex engine: the token classes of `tok_re` are hand-written scanners, and `\s` is the ASCII blank set of a byte-string pattern.
- Vm.ExecAccess: a negative index is an error rather than Python's indexing from the end of the list.
- Vm.ExecCall: a negative operand is an error (`BadOperands`), rather than Python slicing from the front of the stack.
- Vm.ExecClosure: the arity must be a non-negative integer when the closure is built. Python would store any value and fail or misbehave only at call time.
- Vm.Invoke: a saved continuation used as a value gives the model-only error `ContinuationAsValue`. This covers a call argument, an `if` condition and a `set-global` value. The host would go on with a `Cont` tuple and may fail later or may carry on: `atom?`, `eq?` and `symbol?` return normally on one.
- VmBuiltins.Add: tuple concatenation is modelled when one operand is nil, which gives back the other. Pair plus pair and any mix with a closure are type errors in the model. The host would build a tuple of four or more fields, which is not a `Value`.
- SexpWrite.Write / SexpWrite.WriteAsWritten: a closure is refused. The code writes it, because `Closure` is a namedtuple (vm.py:38) and so a tuple at sexp.py:40. It writes the arity and then the boolean rest flag as a dotted tail, as in `(2. True)`, and a chain whose tail is a closure continues into it the same way. Builtins and the `apply` marker are refused by both the code and the model.
- SexpWrite.Write: a Python `int` is an integer within the 64-bit `sys.maxint` range. Larger values are `long`, which the writer rejects.
- SexpWrite.Write / SexpWrite.WriteAsWritten: `int` and `long` are one unbounded `Int`, and writability is decided by the value's range alone. The code tests the host type (sexp.py:38), so a `long` that arithmetic produced with a value back inside the range, such as `(- (+ 9223372036854775807 1) 1)`, is refused by the code but written by the model.
- SexpWrite.WriteAsWritten: where the code raises, it has already written part of the text to the file, such as `(a` for `(a . b)` or `((a` for `((a . b) c)`. The model returns `None` and drops that partial output, because it returns text only for a whole write.
- Vm.Run: the fuel bound replaces the host loop's possible non-termination; running out of fuel is `Exhausted`.
- Operand-count errors from tuple unpacking all map to one `BadOperands` error. The host raises a `ValueError` with a message that depends on the count.

## Findings

| source | as written | input that shows it | evidently intended | confidence | as-written member | corrected member |
|---|---|---|---|---|---|---|
| sexp.py:49-51 | `exp != ()` compares the dotted tail with the empty tuple. For a `Symbol` tail, Python 2 falls back to `Symbol.__cmp__`, which reads `().name` and raises `AttributeError` | the pair `(a . b)`, whose tail is the symbol `b` | write `(a. b)`, as for any other dotted tail | medium, not executed | SexpWrite.WriteAsWritten | SexpWrite.Write |

=== FILE: sexp.dfy ===
/**
 * The s-expression value model shared by the reader, the writer and the
 * machine, with the two list utilities `consify` and `iter_cons_list`.
 *
 * rotten's `sexp.py` represents a pair as a Python 2-tuple, nil as the
 * empty tuple, a symbol as a `Symbol` object compared by name, and closures,
 * natives and the `apply` marker as host objects. Here all of them are one
 * datatype; symbol equality by name is datatype equality on `Sym`.
 */
module Sexp {
  import opened Wrappers

  /** The fixed native functions that `make_globals` installs, besides `apply`. */
  datatype Builtin = ConsFn | CarFn | CdrFn | SymbolP | ConsP | AtomP | EqP | AddFn | SubFn

  datatype Value =
    | Nil
    | Sym(name: string)
    | Int(val: int)
    | Str(text: string)
    | Pair(car: Value, cdr: Value)
    | Closure(arity: nat, hasRest: bool, code: Value, env: seq<Value>)
    | Native(fn: Builtin)
    | ApplyMarker

  predicate IsDigit(c: char) { '0' <= c <= '9' }

  /** A chain of pairs that ends in nil. */
  predicate IsProperList(v: Value) {
    match v
    case Nil => true
    case Pair(_, t) => IsProperList(t)
    case _ => false
  }

  /** The cons-list whose elements are `xs`, first element at the head. */
  function Consify(xs: seq<Value>): (r: Value)
    ensures IsProperList(r)
    ensures r == Nil <==> |xs| == 0
    ensures |xs| > 0 ==> r.Pair? && r.car == xs[0]
  {
    if |xs| == 0 then Nil else Pair(xs[0], Consify(xs[1..]))
  }

  /**
   * The elements of a cons-list, in chain order; None when the walk meets a
   * tail that is neither a pair nor nil (an improper list).
   */
  function IterConsList(v: Value): (r: Option<seq<Value>>)
    ensures r.Some? <==> IsProperList(v)
    ensures r.Some? ==> Consify(r.value) == v
  {
    match v
    case Nil => Some([])
    case Pair(h, t) =>
      (match IterConsList(t)
       case Some(rest) => Some([h] + rest)
       case None => None)
    case _ => None
  }

  /** Iterating the list built from `xs` yields exactly `xs`, in order. */
  lemma {:induction false} IterConsify(xs: seq<Value>)
    ensures IterConsList(Consify(xs)) == Some(xs)
  {
    if |xs| > 0 {
      IterConsify(xs[1..]);
      assert [xs[0]] + xs[1..] == xs;
    }
  }

  /** Consify and IterConsList are inverse bijections between sequences and proper lists. */
  lemma ConsifyIsInjective(xs: seq<Value>, ys: seq<Value>)
    ensures Consify(xs) == Consify(ys) <==> xs == ys
  {
    IterConsify(xs);
    IterConsify(ys);
  }
}

=== FILE: sexp_parse.dfy ===
/**
 * The reader: the token classes of `tok_re` as hand-written scanners tried
 * in the regular expression's order, and the recursive-descent pair
 * `parse_exp` / `parse_exps` over a text buffer, each returning the
 * unconsumed rest of the buffer.
 */
module SexpParse {
  import opened Wrappers
  import opened Sexp

  datatype ParseError =
    | EndOfInput(buf: string)        // `EOF`: the buffer ran out before a token
    | NoToken(buf: string)           // `ParseError`: no token class matches here
    | UnexpectedRParen(buf: string)  // `RParen`: carries the buffer after the paren
    | StringLiteral                  // `NotImplementedError`: string literals are not read

  // ---------- character classes ----------

  /** `\s` of a byte-string pattern: space, tab, newline, return, vertical tab, form feed. */
  predicate IsSpace(c: char) {
    c == ' ' || c == '\t' || c == '\n' || c == '\r' || c as int == 11 || c as int == 12
  }

  /** The punctuation marks that may begin a symbol. */
  const PunctuationStart: set<char> := {'-', '_', '!', '?', '+', '=', '<', '>', '/', '*', '@', '$', '%', '^', '&'}

  /** First character of a symbol: a letter or one of the punctuation marks listed. */
  predicate IsSymbolStart(c: char) {
    ('a' <= c <= 'z') || ('A' <= c <= 'Z') || c in PunctuationStart
  }

  /** Later characters of a symbol: the start class plus digits. */
  predicate IsSymbolChar(c: char) { IsSymbolStart(c) || IsDigit(c) }

  predicate NotDoubleQuote(c: char) { c != '"' }

  /** No symbol or numeral character is a blank, a paren or a quote. */
  lemma SymbolCharIsPlain(c: char)
    requires IsSymbolChar(c)
    ensures !IsSpace(c) && c != '(' && c != ')' && c != '\'' && c != '"'
  {
  }

  /** A digit never starts a symbol, so numerals are not shadowed by the symbol class. */
  lemma DigitIsNotSymbolStart(c: char)
    requires IsDigit(c)
    ensures !IsSymbolStart(c)
  {
    assert c !in PunctuationStart;
  }

  /** Length of the longest prefix of `s` whose characters all satisfy `p`. */
  function Span(s: string, p: char -> bool): (n: nat)
    ensures n <= |s|
    ensures forall i :: 0 <= i < n ==> p(s[i])
    ensures n < |s| ==> !p(s[n])
  {
    if |s| == 0 || !p(s[0]) then 0 else 1 + Span(s[1..], p)
  }

  // ---------- the alternatives of tok_re, each giving its match length (0: no match) ----------

  function SpaceMatch(buf: string): nat { Span(buf, IsSpace) }

  function ParenMatch(buf: string): nat {
    if |buf| > 0 && (buf[0] == '(' || buf[0] == ')') then 1 else 0
  }

  function SymbolMatch(buf: string): nat {
    if |buf| > 0 && IsSymbolStart(buf[0]) then 1 + Span(buf[1..], IsSymbolChar) else 0
  }

  /** `-?[0-9]+`: an optional minus, then at least one digit. */
  function NumberMatch(buf: string): nat {
    var sign := if |buf| > 0 && buf[0] == '-' then 1 else 0;
    var digits := Span(buf[sign..], IsDigit);
    if digits == 0 then 0 else sign + digits
  }

  /**
   * `"(?:[^"]|\\")*"`: a double quote, then everything up to the next double
   * quote. The backslash-quote alternative never changes the first match,
   * since the non-quote alternative is tried first and the closing quote
   * is found at the first quote after the opening one.
   */
  function StringMatch(buf: string): nat {
    if |buf| > 0 && buf[0] == '"' then
      var body := Span(buf[1..], NotDoubleQuote);
      if 1 + body < |buf| then 2 + body else 0
    else 0
  }

  function QuoteMatch(buf: string): nat {
    if |buf| > 0 && buf[0] == '\'' then 1 else 0
  }

  /** `tok_re.match(buf)`: the first alternative, in order, that matches. */
  function MatchLength(buf: string): (n: nat)
    ensures n <= |buf|
    ensures n > 0 ==> IsSpace(buf[0]) || buf[0] == '(' || buf[0] == ')' || IsSymbolStart(buf[0])
                      || IsDigit(buf[0]) || buf[0] == '"' || buf[0] == '\''
  {
    if SpaceMatch(buf) > 0 then SpaceMatch(buf)
    else if ParenMatch(buf) > 0 then ParenMatch(buf)
    else if SymbolMatch(buf) > 0 then SymbolMatch(buf)
    else if NumberMatch(buf) > 0 then NumberMatch(buf)
    else if StringMatch(buf) > 0 then StringMatch(buf)
    else QuoteMatch(buf)
  }

  // ---------- integer literals ----------

  function DigitValue(c: char): nat {
    if IsDigit(c) then c as int - '0' as int else 0
  }

  /** The value of a run of decimal digits (leading zeros allowed). */
  function DigitsValue(s: string): nat {
    if |s| == 0 then 0 else 10 * DigitsValue(s[..|s| - 1]) + DigitValue(s[|s| - 1])
  }

  /** `int(tok)` on a numeric token: non-positive exactly when there is a leading minus (or the digits are all zero). */
  function DecimalValue(tok: string): (n: int)
    ensures |tok| > 0 && tok[0] == '-' ==> n <= 0
    ensures !(|tok| > 0 && tok[0] == '-') ==> n >= 0
  {
    if |tok| > 0 && tok[0] == '-' then -(DigitsValue(tok[1..]) as int) else DigitsValue(tok)
  }

  // ---------- buffer bookkeeping ----------

  predicate IsSuffix(rest: string, buf: string) {
    |rest| <= |buf| && rest == buf[|buf| - |rest|..]
  }

  predicate IsStrictSuffix(rest: string, buf: string) {
    |rest| < |buf| && rest == buf[|buf| - |rest|..]
  }

  /** `rest` is what follows a `)` inside `buf`. */
  predicate AfterRParen(rest: string, buf: string) {
    IsStrictSuffix(rest, buf) && buf[|buf| - |rest| - 1] == ')'
  }

  lemma SuffixOfSuffix(a: string, b: string, c: string)
    requires IsSuffix(a, b) && IsSuffix(b, c)
    ensures IsSuffix(a, c)
    ensures IsStrictSuffix(a, b) || IsStrictSuffix(b, c) ==> IsStrictSuffix(a, c)
    ensures AfterRParen(a, b) ==> AfterRParen(a, c)
  {
    assert c[|c| - |b|..][|b| - |a|..] == c[|c| - |a|..];
  }

  // ---------- the parser ----------

  /**
   * `parse_exp`: skip whitespace tokens, then read one expression. Returns
   * the rest of the buffer and the expression.
   */
  function ParseExp(buf: string): (r: Result<(string, Value), ParseError>)
    ensures r.Ok? ==> IsStrictSuffix(r.value.0, buf)
    ensures r.Err? && r.error.EndOfInput? ==> r.error.buf == []
    ensures r.Err? && r.error.UnexpectedRParen? ==> AfterRParen(r.error.buf, buf)
    ensures r.Err? && r.error.NoToken? ==> IsSuffix(r.error.buf, buf) && MatchLength(r.error.buf) == 0
    decreases |buf|, 0
  {
    if |buf| == 0 then Err(EndOfInput(buf))
    else
      var n := MatchLength(buf);
      if n == 0 then Err(NoToken(buf))
      else
        var tok, rest := buf[..n], buf[n..];
        assert IsStrictSuffix(rest, buf);
        if IsSpace(tok[0]) then
          var r := ParseExp(rest);
          if r.Ok? then (SuffixOfSuffix(r.value.0, rest, buf); r)
          else if r.error.UnexpectedRParen? || r.error.NoToken? then (SuffixOfSuffix(r.error.buf, rest, buf); r)
          else r
        else if tok == "(" then
          (match ParseExps(rest)
           case Ok((rest', exps)) => SuffixOfSuffix(rest', rest, buf); Ok((rest', Consify(exps)))
           case Err(e) => if e.NoToken? then (SuffixOfSuffix(e.buf, rest, buf); Err(e)) else Err(e))
        else if tok == ")" then Err(UnexpectedRParen(rest))
        else if tok == "'" then Ok((rest, Sym("quote")))
        else if IsSymbolStart(tok[0]) then Ok((rest, Sym(tok)))
        else if tok[0] == '-' || IsDigit(tok[0]) then Ok((rest, Int(DecimalValue(tok))))
        else if tok[0] == '"' then Err(StringLiteral)
        else assert false; Err(NoToken(buf))
  }

  /**
   * `parse_exps`: read expressions in order until the end of input or a
   * `)`, returning the buffer after the stopping point. End of input and
   * `)` both end the sequence normally; any other error propagates.
   */
  function ParseExps(buf: string): (r: Result<(string, seq<Value>), ParseError>)
    ensures r.Ok? ==> IsSuffix(r.value.0, buf)
    ensures r.Ok? ==> r.value.0 == [] || AfterRParen(r.value.0, buf)
    ensures r.Err? ==> r.error.StringLiteral? || r.error.NoToken?
    ensures r.Err? && r.error.NoToken? ==> IsSuffix(r.error.buf, buf) && MatchLength(r.error.buf) == 0
    decreases |buf|, 1
  {
    match ParseExp(buf)
    case Err(EndOfInput(rest)) => Ok((rest, []))
    case Err(UnexpectedRParen(rest)) => Ok((rest, []))
    case Err(e) => Err(e)
    case Ok((rest, e)) =>
      match ParseExps(rest)
      case Ok((rest', es)) =>
        SuffixOfSuffix(rest', rest, buf);
        Ok((rest', [e] + es))
      case Err(err) =>
        if err.NoToken? then (SuffixOfSuffix(err.buf, rest, buf); Err(err)) else Err(err)
  }

  // ---------- properties of the reader ----------

  lemma {:induction false} SpanAll(a: string, b: string, p: char -> bool)
    requires forall i :: 0 <= i < |a| ==> p(a[i])
    requires |b| == 0 || !p(b[0])
    ensures Span(a + b, p) == |a|
  {
    if |a| == 0 {
      assert a + b == b;
    } else {
      assert (a + b)[1..] == a[1..] + b;
      SpanAll(a[1..], b, p);
    }
  }

  /** A symbol start, then symbol characters, then anything that is not one: a single symbol token. */
  lemma SymbolTokenSpan(name: string, s: string)
    requires |name| > 0 && IsSymbolStart(name[0])
    requires forall i :: 1 <= i < |name| ==> IsSymbolChar(name[i])
    requires |s| == 0 || !IsSymbolChar(s[0])
    ensures MatchLength(name + s) == |name|
  {
    var buf := name + s;
    SymbolCharIsPlain(name[0]);
    assert buf[0] == name[0];
    assert buf[1..] == name[1..] + s;
    SpanAll(name[1..], s, IsSymbolChar);
    assert SpaceMatch(buf) == 0;
    assert ParenMatch(buf) == 0;
    assert SymbolMatch(buf) == |name|;
  }

  /** A token that starts like a symbol is read as the symbol it spells. */
  lemma SymbolTokenRead(buf: string)
    requires |buf| > 0 && IsSymbolStart(buf[0]) && MatchLength(buf) > 0
    ensures var n := MatchLength(buf); ParseExp(buf) == Ok((buf[n..], Sym(buf[..n])))
  {
    SymbolCharIsPlain(buf[0]);
    var n := MatchLength(buf);
    assert buf[..n][0] == buf[0];
  }

  /**
   * The symbol alternative precedes the numeric one and admits a leading
   * `-`, so a minus followed by digits reads as a symbol, never as a
   * negative integer.
   */
  lemma MinusDigitsIsSymbol(digits: string)
    requires |digits| > 0 && forall i :: 0 <= i < |digits| ==> IsDigit(digits[i])
    ensures ParseExp("-" + digits) == Ok(([], Sym("-" + digits)))
  {
    var buf := "-" + digits;
    SymbolTokenSpan(buf, []);
    assert buf + [] == buf;
    SymbolTokenRead(buf);
    assert buf[..|buf|] == buf;
  }

  lemma NegativeFiveIsSymbol()
    ensures ParseExp("-5") == Ok(([], Sym("-5")))
  {
    MinusDigitsIsSymbol("5");
    assert "-" + "5" == "-5";
  }

  /** The quote token reads as the bare symbol `quote`; the next expression is left unread. */
  lemma QuoteIsBareSymbol(rest: string)
    ensures ParseExp("'" + rest) == Ok((rest, Sym("quote")))
  {
    var buf := "'" + rest;
    assert buf[0] == '\'' && buf[1..] == rest;
    assert MatchLength(buf) == 1;
    assert buf[..1] == "'";
  }

  /** A `)` where an expression is expected raises, carrying the buffer after the paren. */
  lemma RParenCarriesRest(rest: string)
    ensures ParseExp(")" + rest) == Err(UnexpectedRParen(rest))
  {
    var buf := ")" + rest;
    assert buf[0] == ')' && buf[1..] == rest;
    assert MatchLength(buf) == 1;
    assert buf[..1] == ")";
  }

  /** Every complete string literal is recognised as a token and then refused, whatever follows it. */
  lemma StringLiteralRefused(body: string, rest: string)
    requires forall i :: 0 <= i < |body| ==> body[i] != '"'
    ensures ParseExp("\"" + body + "\"" + rest) == Err(StringLiteral)
  {
    var buf := "\"" + body + "\"" + rest;
    StringTokenLength(body, rest);
    assert buf[0] == '"' && !IsSpace(buf[0]) && !IsSymbolStart(buf[0]) && !IsDigit(buf[0]);
  }

  /** A double quote, a body without one, and a closing double quote form one token. */
  lemma StringTokenLength(body: string, rest: string)
    requires forall i :: 0 <= i < |body| ==> body[i] != '"'
    ensures MatchLength("\"" + body + "\"" + rest) == |body| + 2
  {
    var buf := "\"" + body + "\"" + rest;
    assert buf[0] == '"';
    assert SpaceMatch(buf) == 0 && ParenMatch(buf) == 0 && SymbolMatch(buf) == 0 && NumberMatch(buf) == 0;
    assert buf[1..] == body + ("\"" + rest);
    SpanAll(body, "\"" + rest, NotDoubleQuote);
  }

  /**
   * A character that begins no token class (not a blank, a paren, a quote,
   * a double quote, a digit or a symbol start) raises, carrying the buffer
   * from that character on.
   */
  lemma StrayCharIsNoToken(buf: string)
    requires |buf| > 0 && !IsSpace(buf[0]) && !IsSymbolStart(buf[0]) && !IsDigit(buf[0])
    requires buf[0] != '(' && buf[0] != ')' && buf[0] != '"' && buf[0] != '\''
    ensures ParseExp(buf) == Err(NoToken(buf))
  {
  }

  /** A double quote with no closing one is no token: the literal class needs both quotes. */
  lemma UnterminatedStringIsNoToken(body: string)
    requires forall i :: 0 <= i < |body| ==> body[i] != '"'
    ensures ParseExp("\"" + body) == Err(NoToken("\"" + body))
  {
    UnterminatedStringLength(body);
  }

  lemma UnterminatedStringLength(body: string)
    requires forall i :: 0 <= i < |body| ==> body[i] != '"'
    ensures MatchLength("\"" + body) == 0
  {
    var buf := "\"" + body;
    assert buf[0] == '"' && !IsSpace(buf[0]) && !IsSymbolStart(buf[0]) && !IsDigit(buf[0]);
    assert SpaceMatch(buf) == 0 && ParenMatch(buf) == 0 && SymbolMatch(buf) == 0 && NumberMatch(buf) == 0;
    assert buf[1..] == body + [];
    SpanAll(body, [], NotDoubleQuote);
  }

  /** `.` is such a character: there is no dotted-pair syntax in the reader. */
  lemma DotIsNoToken(rest: string)
    ensures ParseExp("." + rest) == Err(NoToken("." + rest))
  {
    StrayCharIsNoToken("." + rest);
  }

  /** `(a` reads as the list `(a)`, with nothing left over. */
  lemma UnclosedSymbolListIsClosed()
    ensures ParseExp("(a") == Ok(([], Pair(Sym("a"), Nil)))
  {
    var buf := "(a";
    assert MatchLength(buf) == 1;
    assert buf[..1] == "(" && buf[1..] == "a";
    assert "a"[1..] == [] && "a"[..1] == "a";
    assert MatchLength("a") == 1;
    assert ParseExp("a") == Ok(([], Sym("a")));
    assert ParseExp([]) == Err(EndOfInput([]));
    assert ParseExps([]) == Ok(([], []));
    assert [Sym("a")] + [] == [Sym("a")];
    assert ParseExps("a") == Ok(([], [Sym("a")]));
  }

  /**
   * A `(` with no `)` after it is closed silently at the end of input: the
   * list holds everything `parse_exps` reads and nothing is left over.
   */
  lemma UnclosedListIsClosed(inner: string)
    requires forall i :: 0 <= i < |inner| ==> inner[i] != ')'
    requires ParseExps(inner).Ok?
    ensures ParseExp("(" + inner) == Ok(([], Consify(ParseExps(inner).value.1)))
  {
    var rest, es := ParseExps(inner).value.0, ParseExps(inner).value.1;
    assert rest == [];
    OpenParenStep(inner, rest, es);
  }

  predicate AllSpace(s: string) {
    forall i :: 0 <= i < |s| ==> IsSpace(s[i])
  }

  /**
   * `parse_exp` reports end of input exactly when the buffer is empty or
   * holds only whitespace; inside a list the end of input closes the list
   * instead.
   */
  lemma {:induction false} EndOfInputIffBlank(buf: string)
    ensures (ParseExp(buf).Err? && ParseExp(buf).error.EndOfInput?) <==> AllSpace(buf)
    decreases |buf|
  {
    if |buf| > 0 {
      var n := MatchLength(buf);
      if IsSpace(buf[0]) {
        assert n == SpaceMatch(buf) > 0;
        var rest := buf[n..];
        EndOfInputIffBlank(rest);
        if AllSpace(buf) {
          SpanAll(buf, [], IsSpace);
          assert buf + [] == buf;
          assert rest == [];
        }
      }
    }
  }

  // ---------- single parsing steps ----------

  /** `(` starts a list holding what `parse_exps` reads after it. */
  lemma OpenParenStep(inner: string, rest: string, es: seq<Value>)
    requires ParseExps(inner) == Ok((rest, es))
    ensures ParseExp("(" + inner) == Ok((rest, Consify(es)))
  {
    var buf := "(" + inner;
    assert buf[1..] == inner;
    assert MatchLength(buf) == 1;
    assert buf[..1] == "(";
  }

  /** `parse_exps` keeps one expression and continues after it. */
  lemma ExpsConsStep(buf: string, rest: string, e: Value, rest': string, es: seq<Value>)
    requires ParseExp(buf) == Ok((rest, e))
    requires ParseExps(rest) == Ok((rest', es))
    ensures ParseExps(buf) == Ok((rest', [e] + es))
  {
  }

  /** `parse_exps` stops at a `)` and returns the buffer after it. */
  lemma ExpsCloseStep(rest: string)
    ensures ParseExps(")" + rest) == Ok((rest, []))
  {
    RParenCarriesRest(rest);
  }

  /** One blank before a token that is not blank is skipped. */
  lemma SkipBlank(rest: string)
    requires |rest| > 0 && !IsSpace(rest[0])
    ensures ParseExp(" " + rest) == ParseExp(rest)
  {
    var buf := " " + rest;
    assert buf[1..] == rest;
    assert Span(buf, IsSpace) == 1;
    assert MatchLength(buf) == 1;
    assert buf[..1] == " ";
  }
}

=== FILE: sexp_roundtrip.dfy ===
/**
 * Reading back what the writer wrote: for symbols whose names fall in the
 * symbol token class, non-negative integers that the writer accepts, and
 * proper lists of such values, `parse_exp(write_sexp(v))` returns `v` and
 * consumes the whole text.
 */
module SexpRoundTrip {
  import opened Wrappers
  import opened Sexp
  import opened SexpWrite
  import opened SexpParse

  predicate IsSymbolName(name: string) {
    && |name| > 0
    && IsSymbolStart(name[0])
    && forall i :: 1 <= i < |name| ==> IsSymbolChar(name[i])
  }

  /** The values whose written form reads back to themselves. */
  predicate Readable(v: Value) {
    match v
    case Nil => true
    case Sym(name) => IsSymbolName(name)
    case Int(i) => 0 <= i <= MaxInt
    case Pair(h, t) => Readable(h) && Readable(t) && (t.Nil? || t.Pair?)
    case _ => false
  }

  /** Text after a token that cannot extend a symbol or numeral token. */
  predicate Delimited(s: string) {
    |s| == 0 || !IsSymbolChar(s[0])
  }

  lemma {:induction false} DecimalRoundTrip(n: nat)
    ensures DigitsValue(NatToDecimal(n)) == n
  {
    if n >= 10 {
      var s := NatToDecimal(n);
      assert s[..|s| - 1] == NatToDecimal(n / 10);
      DecimalRoundTrip(n / 10);
    }
  }

  /** `int(repr(i))` is `i` for every integer, negative ones included. */
  lemma IntReprReadsBack(i: int)
    ensures DecimalValue(IntRepr(i)) == i
  {
    if i < 0 {
      MinusDigitsReadBack(-i);
    } else {
      DigitsReadBack(i);
    }
  }

  lemma DigitsReadBack(n: nat)
    ensures DecimalValue(NatToDecimal(n)) == n
  {
    var tok := NatToDecimal(n);
    assert IsDigit(tok[0]);
    DecimalRoundTrip(n);
  }

  lemma MinusDigitsReadBack(n: nat)
    ensures DecimalValue("-" + NatToDecimal(n)) == -(n as int)
  {
    var digits := NatToDecimal(n);
    assert ("-" + digits)[1..] == digits;
    DecimalRoundTrip(n);
  }

  lemma ReadableIsWritable(v: Value)
    requires Readable(v)
    ensures Writable(v)
  {
  }

  /** A written readable value starts with a paren, a symbol character or a digit, never a blank. */
  lemma WrittenStart(v: Value)
    requires Readable(v)
    ensures Write(v).Some? && |Write(v).value| > 0
    ensures var c := Write(v).value[0]; (c == '(' || IsSymbolStart(c) || IsDigit(c)) && !IsSpace(c)
  {
    ReadableIsWritable(v);
    var c := Write(v).value[0];
    if c != '(' {
      SymbolCharIsPlain(c);
    }
  }

  /** The round trip, for any text following the written value that does not glue onto it. */
  lemma {:induction false} ParseWritten(v: Value, s: string)
    requires Readable(v) && Delimited(s)
    ensures Write(v).Some? && ParseExp(Write(v).value + s) == Ok((s, v))
    decreases v, 2
  {
    match v
    case Sym(name) => ParseWrittenSymbol(name, s);
    case Int(i) => ParseWrittenInt(i, s);
    case Nil => ParseWrittenList(v, s);
    case Pair(_, _) => ParseWrittenList(v, s);
  }

  /** A written symbol is a whole symbol token. */
  lemma SymbolTokenLength(name: string, s: string)
    requires IsSymbolName(name) && Delimited(s)
    ensures MatchLength(name + s) == |name|
  {
    SymbolTokenSpan(name, s);
  }

  lemma ParseWrittenSymbol(name: string, s: string)
    requires IsSymbolName(name) && Delimited(s)
    ensures Write(Sym(name)) == Some(name) && ParseExp(name + s) == Ok((s, Sym(name)))
  {
    var buf := name + s;
    SymbolTokenLength(name, s);
    assert buf[0] == name[0];
    SymbolTokenRead(buf);
    assert buf[..|name|] == name && buf[|name|..] == s;
  }

  /** A token that starts with a digit is read as the integer it spells. */
  lemma DigitTokenRead(buf: string)
    requires |buf| > 0 && IsDigit(buf[0]) && MatchLength(buf) > 0
    ensures var n := MatchLength(buf); ParseExp(buf) == Ok((buf[n..], Int(DecimalValue(buf[..n]))))
  {
    SymbolCharIsPlain(buf[0]);
    DigitIsNotSymbolStart(buf[0]);
    var n := MatchLength(buf);
    assert buf[..n][0] == buf[0];
  }

  /** A written non-negative integer is a whole numeral token. */
  lemma DigitTokenLength(digits: string, s: string)
    requires |digits| > 0 && (forall i :: 0 <= i < |digits| ==> IsDigit(digits[i])) && Delimited(s)
    ensures MatchLength(digits + s) == |digits|
  {
    var buf := digits + s;
    SpanAll(digits, s, IsDigit);
    assert buf[0] == digits[0] && IsDigit(buf[0]);
    assert SpaceMatch(buf) == 0 && ParenMatch(buf) == 0 && SymbolMatch(buf) == 0;
    assert buf[0..] == buf;
    assert NumberMatch(buf) == |digits|;
  }

  lemma ParseWrittenInt(i: int, s: string)
    requires 0 <= i <= MaxInt && Delimited(s)
    ensures Write(Int(i)) == Some(NatToDecimal(i)) && ParseExp(NatToDecimal(i) + s) == Ok((s, Int(i)))
  {
    var digits := NatToDecimal(i);
    var buf := digits + s;
    DigitTokenLength(digits, s);
    assert buf[0] == digits[0];
    DigitTokenRead(buf);
    assert buf[..|digits|] == digits && buf[|digits|..] == s;
    DecimalRoundTrip(i);
  }

  lemma {:induction false} ParseWrittenList(v: Value, s: string)
    requires Readable(v) && (v.Nil? || v.Pair?)
    ensures Write(v).Some? && ParseExp(Write(v).value + s) == Ok((s, v))
    decreases v, 1
  {
    ReadableIsWritable(v);
    if v.Nil? {
      assert Write(v).value + s == "(" + (")" + s);
      ExpsCloseStep(s);
      OpenParenStep(")" + s, s, []);
    } else {
      var h, t := v.car, v.cdr;
      TailDelimited(t, s);
      ParseWritten(h, WriteTail(t).value + ")" + s);
      ParseElements(t, s);
      ListStep(h, t, s);
    }
  }

  /** The rest of a written proper list, then `)`, reads back as its elements. */
  lemma {:induction false} ParseElements(t: Value, s: string)
    requires Readable(t) && (t.Nil? || t.Pair?)
    ensures WriteTail(t).Some? && IterConsList(t).Some?
    ensures ParseExps(WriteTail(t).value + ")" + s) == Ok((s, IterConsList(t).value))
    decreases t, 0
  {
    ReadableIsWritable(t);
    if t.Nil? {
      assert WriteTail(t).value + ")" + s == ")" + s;
      ExpsCloseStep(s);
    } else {
      var h, t' := t.car, t.cdr;
      TailDelimited(t', s);
      ParseWritten(h, WriteTail(t').value + ")" + s);
      WrittenStart(h);
      ParseElements(t', s);
      ElementStep(h, t', s);
    }
  }

  /** A written list `(h ...)` reads back once its head and the rest of its elements do. */
  lemma ListStep(h: Value, t: Value, s: string)
    requires Write(h).Some? && WriteTail(t).Some? && IterConsList(t).Some?
    requires ParseExp(Write(h).value + (WriteTail(t).value + ")" + s)) == Ok((WriteTail(t).value + ")" + s, h))
    requires ParseExps(WriteTail(t).value + ")" + s) == Ok((s, IterConsList(t).value))
    ensures ParseExp(Write(Pair(h, t)).value + s) == Ok((s, Pair(h, t)))
  {
    var wh, wt := Write(h).value, WriteTail(t).value;
    var after := wt + ")" + s;
    var elems := IterConsList(t).value;
    assert Write(Pair(h, t)).value == "(" + wh + wt + ")";
    Regroup("(", wh, wt, s);
    ExpsConsStep(wh + after, after, h, s, elems);
    OpenParenStep(wh + after, s, [h] + elems);
  }

  /** A further element ` h ...` of a written list reads back once `h` and the rest do. */
  lemma ElementStep(h: Value, t: Value, s: string)
    requires Write(h).Some? && WriteTail(t).Some? && IterConsList(t).Some?
    requires |Write(h).value| > 0 && !IsSpace(Write(h).value[0])
    requires ParseExp(Write(h).value + (WriteTail(t).value + ")" + s)) == Ok((WriteTail(t).value + ")" + s, h))
    requires ParseExps(WriteTail(t).value + ")" + s) == Ok((s, IterConsList(t).value))
    ensures WriteTail(Pair(h, t)).Some? && IterConsList(Pair(h, t)).Some?
    ensures ParseExps(WriteTail(Pair(h, t)).value + ")" + s) == Ok((s, IterConsList(Pair(h, t)).value))
  {
    var wh, wt := Write(h).value, WriteTail(t).value;
    var after := wt + ")" + s;
    assert WriteTail(Pair(h, t)).value == " " + wh + wt;
    Regroup(" ", wh, wt, s);
    SkipBlank(wh + after);
    ExpsConsStep(" " + (wh + after), after, h, s, IterConsList(t).value);
  }

  /** What follows an element inside a written list starts with a blank or the closing paren. */
  lemma TailDelimited(t: Value, s: string)
    requires Readable(t) && (t.Nil? || t.Pair?)
    ensures WriteTail(t).Some? && Delimited(WriteTail(t).value + ")" + s)
  {
    ReadableIsWritable(t);
    var wt := WriteTail(t).value;
    if t.Nil? {
      assert (wt + ")" + s)[0] == ')';
    } else {
      assert (wt + ")" + s)[0] == wt[0] == ' ';
    }
  }

  lemma Regroup(open: string, wh: string, wt: string, s: string)
    ensures (open + wh + wt) + ")" + s == open + (wh + (wt + ")" + s))
    ensures (open + wh + wt + ")") + s == open + (wh + (wt + ")" + s))
  {
  }

  /** The round trip of a whole text: `parse_exp(write_sexp(v))` is `v` with nothing left over. */
  lemma RoundTrip(v: Value)
    requires Readable(v)
    ensures Write(v).Some? && ParseExp(Write(v).value) == Ok(([], v))
  {
    ParseWritten(v, []);
    assert Write(v).value + [] == Write(v).value;
  }

  /** The writer as written agrees with the corrected one on every readable value, so the round trip holds for it too. */
  lemma RoundTripAsWritten(v: Value)
    requires Readable(v)
    ensures WriteAsWritten(v) == Write(v)
    ensures WriteAsWritten(v).Some? && ParseExp(WriteAsWritten(v).value) == Ok(([], v))
  {
    ReadableIsWritable(v);
    RoundTrip(v);
  }

  /** Negative integers do not survive: `-5` is written as the text of a symbol. */
  lemma NegativeIntegerReadsAsSymbol()
    ensures Write(Int(-5)) == Some("-5")
    ensures ParseExp(Write(Int(-5)).value) == Ok(([], Sym("-5")))
  {
    assert DigitChar(5) == '5';
    assert NatToDecimal(5) == "5";
    assert IntRepr(-5) == "-" + "5";
    assert "-" + "5" == "-5";
    assert Write(Int(-5)) == Some(IntRepr(-5));
    NegativeFiveIsSymbol();
  }
}

=== FILE: sexp_write.dfy ===
/**
 * The serialiser `write_sexp`: a symbol as its bare name, an integer or a
 * string as Python 2's `repr`, a pair chain as a parenthesised,
 * space-separated sequence with `. tail` before an improper tail, and
 * anything else refused as "not an s-expression".
 */
module SexpWrite {
  import opened Wrappers
  import opened Sexp

  /** `sys.maxint` of a 64-bit CPython 2: larger magnitudes are `long`, which is not `int`. */
  const MaxInt: int := 0x7fff_ffff_ffff_ffff
  const MinInt: int := -0x8000_0000_0000_0000

  function DigitChar(d: nat): (c: char)
    requires d < 10
    ensures IsDigit(c)
  {
    "0123456789"[d]
  }

  /** Decimal digits of `n`, most significant first, without leading zeros. */
  function NatToDecimal(n: nat): (s: string)
    ensures |s| > 0
    ensures forall i :: 0 <= i < |s| ==> IsDigit(s[i])
    ensures |s| > 1 ==> s[0] != '0'
  {
    if n < 10 then [DigitChar(n)] else NatToDecimal(n / 10) + [DigitChar(n % 10)]
  }

  /** `repr` of a Python integer: a minus sign exactly for a negative value, then decimal digits. */
  function IntRepr(i: int): (r: string)
    ensures |r| > 0 && (r[0] == '-' <==> i < 0)
    ensures forall k :: (if i < 0 then 1 else 0) <= k < |r| ==> IsDigit(r[k])
  {
    if i < 0 then "-" + NatToDecimal(-i) else NatToDecimal(i)
  }

  /** A Python 2 `str` holds bytes: a character above 0xff is not one. */
  predicate IsByteString(s: string) {
    forall i :: 0 <= i < |s| ==> s[i] as int < 256
  }

  /** `repr` picks double quotes only when the text has a single quote and no double quote. */
  function QuoteFor(s: string): char {
    if '\'' in s && '"' !in s then '"' else '\''
  }

  function HexDigit(d: nat): char
    requires d < 16
  {
    "0123456789abcdef"[d]
  }

  /** How `repr` renders one byte inside quotes `q`. */
  function EscapeChar(c: char, q: char): (r: string)
    requires c as int < 256
    ensures |r| > 0
  {
    if c == q || c == '\\' then ['\\', c]
    else if c == '\t' then "\\t"
    else if c == '\n' then "\\n"
    else if c == '\r' then "\\r"
    else if c < ' ' || c as int >= 0x7f then "\\x" + [HexDigit(c as int / 16), HexDigit(c as int % 16)]
    else [c]
  }

  function Escaped(s: string, q: char): string
    requires IsByteString(s)
  {
    if |s| == 0 then "" else EscapeChar(s[0], q) + Escaped(s[1..], q)
  }

  /** `repr` of a Python 2 `str`; None for text that is not a byte string. */
  function StrRepr(s: string): (r: Option<string>)
    ensures r.Some? <==> IsByteString(s)
    ensures r.Some? ==> |r.value| >= 2 && r.value[0] == QuoteFor(s) && r.value[|r.value| - 1] == QuoteFor(s)
  {
    if IsByteString(s) then Some([QuoteFor(s)] + Escaped(s, QuoteFor(s)) + [QuoteFor(s)]) else None
  }

  /** Printable text with no quote or backslash is written verbatim between single quotes. */
  lemma {:induction false} PlainStringVerbatim(s: string)
    requires forall i :: 0 <= i < |s| ==> ' ' <= s[i] && s[i] as int < 0x7f && s[i] != '\'' && s[i] != '\\'
    ensures StrRepr(s) == Some("'" + s + "'")
  {
    assert QuoteFor(s) == '\'';
    EscapedPlain(s);
  }

  lemma {:induction false} EscapedPlain(s: string)
    requires forall i :: 0 <= i < |s| ==> ' ' <= s[i] && s[i] as int < 0x7f && s[i] != '\'' && s[i] != '\\'
    ensures IsByteString(s) && Escaped(s, '\'') == s
  {
    if |s| > 0 {
      EscapedPlain(s[1..]);
      assert [s[0]] + s[1..] == s;
    }
  }

  /** The values the writer accepts: no closure, native or marker anywhere, integers within `int`, byte strings. */
  predicate Writable(v: Value) {
    match v
    case Nil => true
    case Sym(_) => true
    case Int(i) => MinInt <= i <= MaxInt
    case Str(s) => IsByteString(s)
    case Pair(h, t) => Writable(h) && Writable(t)
    case _ => false
  }

  /** `write_sexp`, with the evident intent for a dotted symbol tail (see WriteAsWritten). */
  function Write(v: Value): (r: Option<string>)
    ensures r.Some? <==> Writable(v)
    ensures v.Pair? && r.Some? ==> |r.value| >= 2 && r.value[0] == '(' && r.value[|r.value| - 1] == ')'
    decreases v, 0
  {
    match v
    case Nil => Some("()")
    case Sym(name) => Some(name)
    case Int(i) => if MinInt <= i <= MaxInt then Some(IntRepr(i)) else None
    case Str(s) => StrRepr(s)
    case Pair(h, t) =>
      var head := Write(h);
      var rest := WriteTail(t);
      if head.Some? && rest.Some? then Some("(" + head.value + rest.value + ")") else None
    case _ => None
  }

  /** The loop over the rest of a chain: ` elem` per further pair, then `. tail` unless the tail is nil. */
  function WriteTail(v: Value): (r: Option<string>)
    ensures r.Some? <==> Writable(v)
    ensures v == Nil ==> r == Some("")
    ensures v.Pair? && r.Some? ==> |r.value| > 0 && r.value[0] == ' '
    ensures !v.Pair? && v != Nil && r.Some? ==> |r.value| > 1 && r.value[..2] == ". "
    decreases v, 1
  {
    if v.Nil? then Some("")
    else if v.Pair? then
      var head := Write(v.car);
      var rest := WriteTail(v.cdr);
      if head.Some? && rest.Some? then Some(" " + head.value + rest.value) else None
    else
      var w := Write(v);
      if w.Some? then Some(". " + w.value) else None
  }

  // ---------- the list layout, stated independently of the recursion ----------

  /** The chain with elements `xs` ending in `tail`. */
  function ListWithTail(xs: seq<Value>, tail: Value): Value {
    if |xs| == 0 then tail else Pair(xs[0], ListWithTail(xs[1..], tail))
  }

  /** Each written element preceded by one space. */
  function Spaced(ws: seq<string>): string {
    if |ws| == 0 then "" else " " + ws[0] + Spaced(ws[1..])
  }

  function WriteAll(xs: seq<Value>): (ws: seq<string>)
    requires forall i :: 0 <= i < |xs| ==> Writable(xs[i])
    ensures |ws| == |xs|
    ensures forall i :: 0 <= i < |xs| ==> Write(xs[i]) == Some(ws[i])
  {
    if |xs| == 0 then [] else [Write(xs[0]).value] + WriteAll(xs[1..])
  }

  function TailText(tail: Value): string
    requires Writable(tail)
  {
    if tail == Nil then "" else ". " + Write(tail).value
  }

  /**
   * A chain of written elements is `(` + the elements separated by single
   * spaces + `)`, with `. tail` before the closing paren when the chain
   * ends in a non-nil atom: `(a b)`, `(a b. c)`.
   */
  lemma {:induction false} WriteListLayout(xs: seq<Value>, tail: Value)
    requires |xs| > 0
    requires forall i :: 0 <= i < |xs| ==> Writable(xs[i])
    requires !tail.Pair? && Writable(tail)
    ensures Write(ListWithTail(xs, tail))
         == Some("(" + WriteAll(xs)[0] + Spaced(WriteAll(xs)[1..]) + TailText(tail) + ")")
  {
    var ws := WriteAll(xs);
    WriteTailLayout(xs[1..], tail);
    assert ws[1..] == WriteAll(xs[1..]);
    var rest := ListWithTail(xs[1..], tail);
    assert ListWithTail(xs, tail) == Pair(xs[0], rest);
    assert Write(xs[0]) == Some(ws[0]);
    assert WriteTail(rest) == Some(Spaced(ws[1..]) + TailText(tail));
    assert "(" + ws[0] + (Spaced(ws[1..]) + TailText(tail)) + ")"
        == "(" + ws[0] + Spaced(ws[1..]) + TailText(tail) + ")";
  }

  lemma {:induction false} WriteTailLayout(xs: seq<Value>, tail: Value)
    requires forall i :: 0 <= i < |xs| ==> Writable(xs[i])
    requires !tail.Pair? && Writable(tail)
    ensures WriteTail(ListWithTail(xs, tail)) == Some(Spaced(WriteAll(xs)) + TailText(tail))
  {
    if |xs| == 0 {
      assert "" + TailText(tail) == TailText(tail);
    } else {
      var ws := WriteAll(xs);
      WriteTailLayout(xs[1..], tail);
      assert ws[1..] == WriteAll(xs[1..]);
      var restText := Spaced(ws[1..]) + TailText(tail);
      WriteTailStep(xs[0], ListWithTail(xs[1..], tail), ws[0], restText);
      assert " " + ws[0] + restText == " " + ws[0] + Spaced(ws[1..]) + TailText(tail);
    }
  }

  lemma WriteTailStep(h: Value, t: Value, wh: string, wt: string)
    requires Write(h) == Some(wh) && WriteTail(t) == Some(wt)
    ensures WriteTail(Pair(h, t)) == Some(" " + wh + wt)
  {
  }

  /** A proper list is the elements separated by single spaces inside parens; nil is `()`. */
  lemma {:induction false} ProperListLayout(xs: seq<Value>)
    requires forall i :: 0 <= i < |xs| ==> Writable(xs[i])
    ensures |xs| == 0 ==> Write(Consify(xs)) == Some("()")
    ensures |xs| > 0 ==> Write(Consify(xs)) == Some("(" + WriteAll(xs)[0] + Spaced(WriteAll(xs)[1..]) + ")")
  {
    ConsifyIsListWithNil(xs);
    if |xs| > 0 {
      WriteListLayout(xs, Nil);
      var ws := WriteAll(xs);
      assert TailText(Nil) == "";
      assert "(" + ws[0] + Spaced(ws[1..]) + "" == "(" + ws[0] + Spaced(ws[1..]);
    }
  }

  lemma {:induction false} ConsifyIsListWithNil(xs: seq<Value>)
    ensures Consify(xs) == ListWithTail(xs, Nil)
  {
    if |xs| > 0 {
      ConsifyIsListWithNil(xs[1..]);
    }
  }

  // ---------- the loop exactly as written ----------

  /**
   * `write_sexp` as the code runs on Python 2. After the loop, `exp != ()`
   * on a `Symbol` finds no `__ne__` and falls back to `Symbol.__cmp__`,
   * which reads `.name` of the empty tuple and raises; so a chain whose
   * final tail is a symbol cannot be written. Other tails compare without
   * error.
   */
  function WriteAsWritten(v: Value): (r: Option<string>)
    ensures r.Some? ==> r == Write(v)
    ensures Write(v).Some? && !HasSymbolTail(v) ==> r == Write(v)
    decreases v, 0
  {
    match v
    case Pair(h, t) =>
      var head := WriteAsWritten(h);
      var rest := WriteTailAsWritten(t);
      if head.Some? && rest.Some? then Some("(" + head.value + rest.value + ")") else None
    case _ => Write(v)
  }

  function WriteTailAsWritten(v: Value): (r: Option<string>)
    ensures r.Some? ==> r == WriteTail(v)
    ensures WriteTail(v).Some? && !v.Sym? && !HasSymbolTail(v) ==> r == WriteTail(v)
    decreases v, 1
  {
    if v.Nil? then Some("")
    else if v.Pair? then
      var head := WriteAsWritten(v.car);
      var rest := WriteTailAsWritten(v.cdr);
      if head.Some? && rest.Some? then Some(" " + head.value + rest.value) else None
    else if v.Sym? then None
    else
      var w := WriteAsWritten(v);
      if w.Some? then Some(". " + w.value) else None
  }

  /** Somewhere inside `v` a chain of pairs ends in a symbol. */
  predicate HasSymbolTail(v: Value) {
    match v
    case Pair(h, t) => HasSymbolTail(h) || t.Sym? || HasSymbolTail(t)
    case _ => false
  }

  /**
   * The code as written writes exactly the writable values in which no
   * chain of pairs ends in a symbol; the tail loop also fails on a bare
   * symbol tail.
   */
  lemma {:induction false} AsWrittenFailsOnSymbolTails(v: Value)
    ensures WriteAsWritten(v).Some? <==> Writable(v) && !HasSymbolTail(v)
    ensures WriteTailAsWritten(v).Some? <==> Writable(v) && !v.Sym? && !HasSymbolTail(v)
    decreases v
  {
    match v
    case Pair(h, t) =>
      AsWrittenFailsOnSymbolTails(h);
      AsWrittenFailsOnSymbolTails(t);
    case _ =>
  }

  /** `(a . b)` with a symbol tail: the code as written raises, the intended output is `(a. b)`. */
  lemma DottedSymbolTail()
    ensures WriteAsWritten(Pair(Sym("a"), Sym("b"))) == None
    ensures Write(Pair(Sym("a"), Sym("b"))) == Some("(a. b)")
  {
    assert Write(Sym("b")) == Some("b");
    assert WriteTail(Sym("b")) == Some(". " + "b");
    assert Write(Sym("a")) == Some("a");
    assert Write(Pair(Sym("a"), Sym("b"))) == Some("(" + "a" + (". " + "b") + ")");
    assert "(" + "a" + (". " + "b") + ")" == "(a. b)";
  }
}

=== FILE: vm.dfy ===
/**
 * The stack machine: a thread holds a cons-list of instructions, a data
 * stack (top at the end) and a positional environment; the global table of
 * the machine it runs on is carried along in the thread, so that a step is a
 * pure function from thread to thread.
 */
module Vm {
  import opened Wrappers
  import opened Sexp
  import opened VmBuiltins

  /** A data-stack entry: an ordinary value or a saved continuation. */
  datatype Entry = Val(v: Value) | Cont(instrs: Value, env: seq<Value>)

  type Globals = map<string, Value>

  datatype Thread = Thread(instrs: Value, data: seq<Entry>, env: seq<Value>, globals: Globals)

  /** Host truthiness of the instruction stream: the empty tuple, zero and the empty string are false. */
  predicate InstrsFalsy(instrs: Value)
    ensures instrs == Nil ==> InstrsFalsy(instrs)
    ensures InstrsFalsy(instrs) ==> !instrs.Pair?
    ensures InstrsFalsy(instrs) && instrs != Nil ==> IsTrue(instrs)
  {
    instrs == Nil || instrs == Int(0) || instrs == Str("")
  }

  // ---------- the global table ----------

  function GetGlobal(g: Globals, s: Value): (r: Result<Value, VmError>)
    ensures !s.Sym? ==> r == Err(NotASymbol)
    ensures s.Sym? ==> (r.Ok? <==> s.name in g)
    ensures s.Sym? && s.name !in g ==> r == Err(Unbound(s.name))
    ensures r.Ok? ==> s.Sym? && s.name in g && g[s.name] == r.value
  {
    if !s.Sym? then Err(NotASymbol)
    else if s.name in g then Ok(g[s.name])
    else Err(Unbound(s.name))
  }

  function SetGlobal(g: Globals, s: Value, v: Value): (r: Result<Globals, VmError>)
    ensures r.Ok? <==> s.Sym?
    ensures r.Err? ==> r.error == NotASymbol
    ensures r.Ok? ==> r.value.Keys == g.Keys + {s.name}
    ensures r.Ok? ==> s.name in r.value && r.value[s.name] == v
    ensures r.Ok? ==> forall k :: k in g && k != s.name ==> k in r.value && r.value[k] == g[k]
  {
    if s.Sym? then Ok(g[s.name := v]) else Err(NotASymbol)
  }

  // ---------- thread state ----------

  /**
   * `instrs == ()` with at most one entry left. A stream of `0` or `''` is
   * falsy but never done, so a step tries to resume a continuation.
   */
  predicate IsDone(t: Thread)
    ensures IsDone(t) ==> InstrsFalsy(t.instrs) && |t.data| <= 1
    ensures InstrsFalsy(t.instrs) && t.instrs != Nil ==> !IsDone(t)
    ensures !IsDone(t) && t.instrs == Nil ==> |t.data| >= 2
  {
    t.instrs == Nil && |t.data| <= 1
  }

  /** The single value a finished thread leaves behind. */
  function ResultOf(t: Thread): (r: Result<Entry, VmError>)
    ensures r.Ok? <==> IsDone(t) && |t.data| == 1
    ensures r.Ok? ==> t.data == [r.value]
    ensures r.Err? ==> r.error == NoResult
  {
    if IsDone(t) && |t.data| == 1 then Ok(t.data[0]) else Err(NoResult)
  }

  /** The data stack after saving the rest of the current stream, unless nothing is left to return to. */
  function PushCont(t: Thread): (d: seq<Entry>)
    ensures InstrsFalsy(t.instrs) ==> d == t.data
    ensures !InstrsFalsy(t.instrs) ==> |d| == |t.data| + 1 && d[..|t.data|] == t.data
    ensures !InstrsFalsy(t.instrs) ==> d[|t.data|] == Cont(t.instrs, t.env)
  {
    if InstrsFalsy(t.instrs) then t.data else t.data + [Cont(t.instrs, t.env)]
  }

  /** The value on top of the stack is handed back to the continuation right below it. */
  function Resume(t: Thread): (r: Result<Thread, VmError>)
    ensures r.Ok? <==> |t.data| >= 2 && t.data[|t.data| - 2].Cont?
    ensures |t.data| < 2 ==> r == Err(StackUnderflow)
    ensures |t.data| >= 2 && !t.data[|t.data| - 2].Cont? ==> r == Err(NotAContinuation)
    ensures r.Ok? ==> |r.value.data| == |t.data| - 1
    ensures r.Ok? ==> r.value.data[..|t.data| - 2] == t.data[..|t.data| - 2]
    ensures r.Ok? ==> r.value.data[|t.data| - 2] == t.data[|t.data| - 1]
    ensures r.Ok? ==> var k := t.data[|t.data| - 2];
      r.value.instrs == k.instrs && r.value.env == k.env && r.value.globals == t.globals
  {
    var n := |t.data|;
    if n < 2 then Err(StackUnderflow)
    else
      var k := t.data[n - 2];
      if !k.Cont? then Err(NotAContinuation)
      else Ok(Thread(k.instrs, t.data[..n - 2] + [t.data[n - 1]], k.env, t.globals))
  }

  // ---------- calls ----------

  /**
   * Strips `apply` markers: calling the marker with `[f, a1..ak]` is calling
   * `f` with `[a1..ak]`, one level per marker.
   */
  function Unwrap(f: Entry, xs: seq<Entry>): (r: Result<(Entry, seq<Entry>), VmError>)
    ensures r.Err? <==> f == Val(ApplyMarker) && forall i :: 0 <= i < |xs| ==> xs[i] == Val(ApplyMarker)
    ensures r.Err? ==> r.error == ApplyWithoutArgs
    ensures r.Ok? ==> r.value.0 != Val(ApplyMarker)
    ensures r.Ok? ==> |r.value.1| <= |xs| && r.value.1 == xs[|xs| - |r.value.1|..]
    ensures r.Ok? ==> var k := |xs| - |r.value.1|;
      (k == 0 <==> f != Val(ApplyMarker)) &&
      (k == 0 ==> r.value.0 == f) &&
      (k > 0 ==> r.value.0 == xs[k - 1]) &&
      (forall i :: 0 <= i < k - 1 ==> xs[i] == Val(ApplyMarker))
    decreases |xs|
  {
    if f != Val(ApplyMarker) then Ok((f, xs))
    else if |xs| == 0 then Err(ApplyWithoutArgs)
    else
      var r := Unwrap(xs[0], xs[1..]);
      assert r.Ok? ==> xs[1..][|xs[1..]| - |r.value.1|..] == xs[|xs| - |r.value.1|..];
      r
  }

  predicate AllValues(xs: seq<Entry>) {
    forall i :: 0 <= i < |xs| ==> xs[i].Val?
  }

  function ValuesOf(xs: seq<Entry>): (vs: seq<Value>)
    requires AllValues(xs)
    ensures |vs| == |xs|
    ensures forall i :: 0 <= i < |xs| ==> xs[i] == Val(vs[i])
  {
    seq(|xs|, i requires 0 <= i < |xs| => xs[i].v)
  }

  /** The closure's new environment: arguments first (the surplus gathered into one list), then the captured one. */
  function BindArgs(arity: nat, hasRest: bool, captured: seq<Value>, args: seq<Value>): (env: seq<Value>)
    requires arity <= |args|
    requires !hasRest ==> |args| == arity
    ensures |env| == arity + (if hasRest then 1 else 0) + |captured|
    ensures env[..arity] == args[..arity]
    ensures hasRest ==> IterConsList(env[arity]) == Some(args[arity..])
    ensures env[|env| - |captured|..] == captured
  {
    IterConsify(args[arity..]);
    if hasRest then args[..arity] + [Consify(args[arity..])] + captured
    else args + captured
  }

  /** Entering a closure: arity checks, then a continuation unless in tail position, then the body. */
  function CallClosure(t: Thread, c: Value, args: seq<Value>): (r: Result<Thread, VmError>)
    requires c.Closure?
    ensures |args| < c.arity ==> r == Err(TooFewArgs)
    ensures !c.hasRest && |args| > c.arity ==> r == Err(TooManyArgs)
    ensures r.Ok? <==> c.arity <= |args| && (c.hasRest || |args| == c.arity)
    ensures r.Ok? ==> r.value.instrs == c.code && r.value.globals == t.globals && r.value.data == PushCont(t)
    ensures r.Ok? ==> |r.value.env| == c.arity + (if c.hasRest then 1 else 0) + |c.env|
    ensures r.Ok? ==> r.value.env[..c.arity] == args[..c.arity]
    ensures r.Ok? && c.hasRest ==> IterConsList(r.value.env[c.arity]) == Some(args[c.arity..])
    ensures r.Ok? && !c.hasRest ==> r.value.env == args + c.env
    ensures r.Ok? ==> r.value.env[|r.value.env| - |c.env|..] == c.env
  {
    if |args| < c.arity then Err(TooFewArgs)
    else if !c.hasRest && |args| > c.arity then Err(TooManyArgs)
    else Ok(Thread(c.code, PushCont(t), BindArgs(c.arity, c.hasRest, c.env, args), t.globals))
  }

  /** Calling what is left once the `apply` markers are gone: a closure, a builtin, or an error. */
  function Invoke(t: Thread, g: Entry, ys: seq<Entry>): (r: Result<Thread, VmError>)
    ensures !(g.Val? && (g.v.Closure? || g.v.Native?)) ==> r == Err(NotCallable)
    ensures r.Ok? ==> AllValues(ys) && r.value.globals == t.globals
    ensures g.Val? && g.v.Closure? && AllValues(ys) ==> r == CallClosure(t, g.v, ValuesOf(ys))
    ensures g.Val? && g.v.Native? && AllValues(ys) ==>
      (r.Ok? <==> ApplyBuiltin(g.v.fn, ValuesOf(ys)).Ok?)
    ensures r.Ok? && g.Val? && g.v.Native? ==>
      r.value.instrs == t.instrs && r.value.env == t.env &&
      r.value.data == t.data + [Val(ApplyBuiltin(g.v.fn, ValuesOf(ys)).value)]
  {
    if !(g.Val? && (g.v.Closure? || g.v.Native?)) then Err(NotCallable)
    else if !AllValues(ys) then Err(ContinuationAsValue)
    else if g.v.Closure? then CallClosure(t, g.v, ValuesOf(ys))
    else
      var res := ApplyBuiltin(g.v.fn, ValuesOf(ys));
      if res.Err? then Err(res.error)
      else Ok(t.(data := t.data + [Val(res.value)]))
  }

  /** Calling `f` with `xs`, the stack of `t` being what lies below the function. */
  function Call(t: Thread, f: Entry, xs: seq<Entry>): (r: Result<Thread, VmError>)
    ensures Unwrap(f, xs).Err? ==> r == Err(ApplyWithoutArgs)
    ensures Unwrap(f, xs).Ok? ==> r == Invoke(t, Unwrap(f, xs).value.0, Unwrap(f, xs).value.1)
    ensures f != Val(ApplyMarker) ==> r == Invoke(t, f, xs)
    ensures r.Ok? ==> r.value.globals == t.globals
  {
    match Unwrap(f, xs)
    case Err(e) => Err(e)
    case Ok((g, ys)) => Invoke(t, g, ys)
  }

  // ---------- instructions ----------

  function Push(t: Thread, x: Entry): (t': Thread)
    ensures |t'.data| == |t.data| + 1 && t'.data[..|t.data|] == t.data && t'.data[|t.data|] == x
    ensures t'.instrs == t.instrs && t'.env == t.env && t'.globals == t.globals
  {
    t.(data := t.data + [x])
  }

  function ExecPush(t: Thread, args: seq<Value>): (r: Result<Thread, VmError>)
    ensures r.Ok? <==> |args| == 1
    ensures r.Err? ==> r.error == BadOperands
    ensures r.Ok? ==> r.value == Push(t, Val(args[0]))
  {
    if |args| != 1 then Err(BadOperands) else Ok(Push(t, Val(args[0])))
  }

  function ExecPop(t: Thread, args: seq<Value>): (r: Result<Thread, VmError>)
    ensures r.Ok? <==> |args| == 0 && |t.data| > 0
    ensures |args| != 0 ==> r == Err(BadOperands)
    ensures |args| == 0 && |t.data| == 0 ==> r == Err(StackUnderflow)
    ensures r.Ok? ==> r.value.data + [t.data[|t.data| - 1]] == t.data
    ensures r.Ok? ==> r.value.instrs == t.instrs && r.value.env == t.env && r.value.globals == t.globals
  {
    if |args| != 0 then Err(BadOperands)
    else if |t.data| == 0 then Err(StackUnderflow)
    else Ok(t.(data := t.data[..|t.data| - 1]))
  }

  function ExecAccess(t: Thread, args: seq<Value>): (r: Result<Thread, VmError>)
    ensures r.Ok? <==> |args| == 1 && args[0].Int? && 0 <= args[0].val < |t.env|
    ensures |args| != 1 || !args[0].Int? ==> r == Err(BadOperands)
    ensures |args| == 1 && args[0].Int? && !(0 <= args[0].val < |t.env|) ==> r == Err(EnvIndexOutOfRange)
    ensures r.Ok? ==> r.value == Push(t, Val(t.env[args[0].val]))
  {
    if |args| != 1 || !args[0].Int? then Err(BadOperands)
    else if !(0 <= args[0].val < |t.env|) then Err(EnvIndexOutOfRange)
    else Ok(Push(t, Val(t.env[args[0].val])))
  }

  /** `closure arity rest code`: captures the current environment; the rest flag is the truth of its operand. */
  function ExecClosure(t: Thread, args: seq<Value>): (r: Result<Thread, VmError>)
    ensures r.Ok? <==> |args| == 3 && args[0].Int? && args[0].val >= 0
    ensures r.Err? ==> r.error == BadOperands
    ensures r.Ok? ==> |r.value.data| == |t.data| + 1 && r.value.data[..|t.data|] == t.data
    ensures r.Ok? ==> r.value.instrs == t.instrs && r.value.env == t.env && r.value.globals == t.globals
    ensures r.Ok? ==> var e := r.value.data[|t.data|];
      e.Val? && e.v.Closure? && e.v.arity == args[0].val && (e.v.hasRest <==> args[1] != Nil) &&
      e.v.code == args[2] && e.v.env == t.env
  {
    if |args| != 3 || !args[0].Int? || args[0].val < 0 then Err(BadOperands)
    else Ok(Push(t, Val(Closure(args[0].val, IsTrue(args[1]), args[2], t.env))))
  }

  /**
   * `call n`: the top `n` entries are the arguments in push order and the
   * entry below them the function. With `n` zero the whole stack is taken
   * as arguments, so there is no function left to pop.
   */
  function ExecCall(t: Thread, args: seq<Value>): (r: Result<Thread, VmError>)
    ensures |args| != 1 || !args[0].Int? || args[0].val < 0 ==> r == Err(BadOperands)
    ensures |args| == 1 && args[0].Int? && (args[0].val == 0 || args[0].val >= |t.data|) ==> r == Err(StackUnderflow)
    ensures |args| == 1 && args[0].Int? && 1 <= args[0].val < |t.data| ==>
      var n := args[0].val; var base := |t.data| - n - 1;
      r == Call(t.(data := t.data[..base]), t.data[base], t.data[base + 1..])
  {
    if |args| != 1 || !args[0].Int? || args[0].val < 0 then Err(BadOperands)
    else
      var n := args[0].val;
      if n == 0 || n >= |t.data| then Err(StackUnderflow)
      else
        var base := |t.data| - n - 1;
        Call(t.(data := t.data[..base]), t.data[base], t.data[base + 1..])
  }

  /** `if then else`: pops the condition, saves the rest of the stream unless in tail position, enters a branch. */
  function ExecIf(t: Thread, args: seq<Value>): (r: Result<Thread, VmError>)
    ensures r.Ok? <==> |args| == 2 && |t.data| > 0 && t.data[|t.data| - 1].Val?
    ensures |args| != 2 ==> r == Err(BadOperands)
    ensures |args| == 2 && |t.data| == 0 ==> r == Err(StackUnderflow)
    ensures r.Ok? ==> var c := t.data[|t.data| - 1].v;
      r.value.instrs == (if c != Nil then args[0] else args[1]) &&
      r.value.data == PushCont(t.(data := t.data[..|t.data| - 1])) &&
      r.value.env == t.env && r.value.globals == t.globals
  {
    if |args| != 2 then Err(BadOperands)
    else if |t.data| == 0 then Err(StackUnderflow)
    else
      var top := t.data[|t.data| - 1];
      if !top.Val? then Err(ContinuationAsValue)
      else
        var rest := t.(data := t.data[..|t.data| - 1]);
        Ok(rest.(instrs := if IsTrue(top.v) then args[0] else args[1], data := PushCont(rest)))
  }

  function ExecGetGlobal(t: Thread, args: seq<Value>): (r: Result<Thread, VmError>)
    ensures |args| != 1 ==> r == Err(BadOperands)
    ensures |args| == 1 ==> (r.Ok? <==> GetGlobal(t.globals, args[0]).Ok?)
    ensures r.Ok? ==> r.value == Push(t, Val(t.globals[args[0].name]))
  {
    if |args| != 1 then Err(BadOperands)
    else
      var v :- GetGlobal(t.globals, args[0]);
      Ok(Push(t, Val(v)))
  }

  /** `set-global s`: binds `s` to the top of the stack, which stays where it is. */
  function ExecSetGlobal(t: Thread, args: seq<Value>): (r: Result<Thread, VmError>)
    ensures r.Ok? <==> |args| == 1 && |t.data| > 0 && t.data[|t.data| - 1].Val? && args[0].Sym?
    ensures |args| != 1 ==> r == Err(BadOperands)
    ensures |args| == 1 && |t.data| == 0 ==> r == Err(StackUnderflow)
    ensures r.Ok? ==> r.value.instrs == t.instrs && r.value.data == t.data && r.value.env == t.env
    ensures r.Ok? ==> r.value.globals == t.globals[args[0].name := t.data[|t.data| - 1].v]
  {
    if |args| != 1 then Err(BadOperands)
    else if |t.data| == 0 then Err(StackUnderflow)
    else
      var top := t.data[|t.data| - 1];
      if !top.Val? then Err(ContinuationAsValue)
      else
        var g :- SetGlobal(t.globals, args[0], top.v);
        Ok(t.(globals := g))
  }

  /** Dispatch on the opcode name; an unknown name is an error whatever its operands. */
  function Exec(t: Thread, op: string, args: seq<Value>): (r: Result<Thread, VmError>)
    ensures op !in {"push", "pop", "access", "closure", "call", "if", "get-global", "set-global"} ==> r == Err(Unrecognized(op))
    ensures r.Ok? && op != "set-global" ==> r.value.globals == t.globals
  {
    if op == "push" then ExecPush(t, args)
    else if op == "pop" then ExecPop(t, args)
    else if op == "access" then ExecAccess(t, args)
    else if op == "closure" then ExecClosure(t, args)
    else if op == "call" then ExecCall(t, args)
    else if op == "if" then ExecIf(t, args)
    else if op == "get-global" then ExecGetGlobal(t, args)
    else if op == "set-global" then ExecSetGlobal(t, args)
    else Err(Unrecognized(op))
  }

  /** One instruction: it must be a cons whose head is a symbol and whose tail is a proper list of operands. */
  function StepInstr(t: Thread, instr: Value): (r: Result<Thread, VmError>)
    ensures !instr.Pair? ==> r == Err(InstrNotCons)
    ensures instr.Pair? && !instr.car.Sym? ==> r == Err(OpcodeNotSymbol)
    ensures instr.Pair? && instr.car.Sym? && !IsProperList(instr.cdr) ==> r == Err(ImproperList)
    ensures r.Ok? ==> instr.Pair? && instr.car.Sym? && IsProperList(instr.cdr)
    ensures r.Ok? && r.value.globals != t.globals ==> instr.car == Sym("set-global")
  {
    if !instr.Pair? then Err(InstrNotCons)
    else if !instr.car.Sym? then Err(OpcodeNotSymbol)
    else
      var args := IterConsList(instr.cdr);
      if args.None? then Err(ImproperList)
      else Exec(t, instr.car.name, args.value)
  }

  /** The instruction at the head of a stream, if the stream is a cons whose head is one. */
  predicate RunsSetGlobal(t: Thread) {
    t.instrs.Pair? && t.instrs.car.Pair? && t.instrs.car.car == Sym("set-global")
  }

  /** One step of a thread that is not done. */
  function Step(t: Thread): (r: Result<Thread, VmError>)
    requires !IsDone(t)
    ensures InstrsFalsy(t.instrs) ==> r == Resume(t)
    ensures !InstrsFalsy(t.instrs) && !t.instrs.Pair? ==> r == Err(NotAPair)
    ensures t.instrs.Pair? ==> r == StepInstr(t.(instrs := t.instrs.cdr), t.instrs.car)
    ensures r.Ok? && !RunsSetGlobal(t) ==> r.value.globals == t.globals
    ensures r.Ok? ==> t.globals.Keys <= r.value.globals.Keys
  {
    if InstrsFalsy(t.instrs) then Resume(t)
    else if !t.instrs.Pair? then Err(NotAPair)
    else StepInstr(t.(instrs := t.instrs.cdr), t.instrs.car)
  }

  // ---------- running ----------

  datatype Outcome =
    | Halted(final: Thread)
    | Crashed(error: VmError, globals: Globals)
    | Exhausted(last: Thread)

  /** Applies `step` until the thread is done, a step fails, or `fuel` steps have been taken. */
  function Iterate(step: Thread --> Result<Thread, VmError>, t: Thread, fuel: nat): (o: Outcome)
    requires forall u :: !IsDone(u) ==> step.requires(u)
    ensures o.Halted? ==> IsDone(o.final)
    ensures IsDone(t) ==> o == Halted(t)
    ensures fuel == 0 && !IsDone(t) ==> o == Exhausted(t)
    ensures o.Exhausted? ==> !IsDone(o.last)
    decreases fuel
  {
    if IsDone(t) then Halted(t)
    else if fuel == 0 then Exhausted(t)
    else match step(t)
      case Err(e) => Crashed(e, t.globals)
      case Ok(t') => Iterate(step, t', fuel - 1)
  }

  /** Steps until done, an error, or `fuel` steps have been taken. */
  function Run(t: Thread, fuel: nat): (o: Outcome)
    ensures o.Halted? ==> IsDone(o.final)
    ensures IsDone(t) ==> o == Halted(t)
    ensures fuel == 0 && !IsDone(t) ==> o == Exhausted(t)
    ensures o.Exhausted? ==> !IsDone(o.last)
    ensures !IsDone(t) && fuel > 0 && Step(t).Err? ==> o == Crashed(Step(t).error, t.globals)
  {
    Iterate(Step, t, fuel)
  }

  /** The globals a run leaves behind, whether it finished or stopped on an error. */
  function GlobalsAfter(o: Outcome): Globals {
    match o
    case Halted(t) => t.globals
    case Crashed(_, g) => g
    case Exhausted(t) => t.globals
  }

  /** Runs a stream on the given stack, environment and globals and takes its single result. */
  function RunExpr(g: Globals, instrs: Value, data: seq<Entry>, env: seq<Value>, fuel: nat): (r: (Result<Entry, VmError>, Globals))
    ensures r.0.Ok? ==> Run(Thread(instrs, data, env, g), fuel).Halted?
    ensures r.0.Ok? ==> Run(Thread(instrs, data, env, g), fuel).final.data == [r.0.value]
    ensures Run(Thread(instrs, data, env, g), fuel).Exhausted? ==> r.0 == Err(OutOfFuel)
    ensures r.1 == GlobalsAfter(Run(Thread(instrs, data, env, g), fuel))
  {
    var o := Run(Thread(instrs, data, env, g), fuel);
    match o
    case Halted(t) => (ResultOf(t), t.globals)
    case Crashed(e, g') => (Err(e), g')
    case Exhausted(t) => (Err(OutOfFuel), t.globals)
  }
}

=== FILE: vm_builtins.dfy ===
/**
 * The truth convention and the fixed native functions of the machine:
 * `is_null`, `is_true`, `truthify`, the builtins `cons`, `car`, `cdr`,
 * `symbol?`, `cons?`, `atom?`, `eq?`, `+`, `-`, and the initial global table
 * of `make_globals`.
 */
module VmBuiltins {
  import opened Wrappers
  import opened Sexp

  /** Everything that stops a run. Each kind names the host exception it stands for. */
  datatype VmError =
    | NotAPair                 // `car`/`cdr` assertion on a non-cons
    | ImproperList             // `iter_cons_list` met a non-pair tail
    | InstrNotCons             // "instruction is not a cons"
    | OpcodeNotSymbol          // `.name` of a non-symbol opcode
    | BadOperands              // wrong operand count or operand type
    | StackUnderflow           // `pop` from an empty data stack
    | EnvIndexOutOfRange       // `env[n]` out of range
    | NotAContinuation         // the entry under a returned value is not a `Cont`
    | NotASymbol               // `get_global`/`set_global` on a non-symbol
    | Unbound(name: string)    // `KeyError` in the global table
    | ApplyWithoutArgs         // `args[0]` of an empty argument list under `apply`
    | NotCallable              // "Cannot call non-function"
    | TooFewArgs               // "too few arguments to function"
    | TooManyArgs              // "too many arguments to function"
    | BuiltinArity             // a native called with the wrong argument count
    | BuiltinType              // `+`/`-` on operands that do not support it
    | ContinuationAsValue      // a saved continuation used as an ordinary value
    | Unrecognized(op: string) // "Unrecognized instruction type."
    | OutOfFuel                // the step budget of a run ran out
    | NoResult                 // `result` of a run that did not leave exactly one entry

  /**
   * `x == ()`: the empty tuple only. A symbol, a pair, `0` and `''` all
   * compare unequal to it.
   */
  predicate IsNull(x: Value)
    ensures IsNull(x) ==> !x.Pair? && !x.Sym? && !x.Int? && !x.Str?
  {
    x == Nil
  }

  /** Nil is the only false value: unlike host truthiness, `0` and `''` are true. */
  predicate IsTrue(x: Value)
    ensures x == Nil ==> !IsTrue(x)
    ensures x == Int(0) || x == Str("") ==> IsTrue(x)
  {
    !IsNull(x)
  }

  /** The value a predicate builtin returns for a host boolean. */
  function Truthify(b: bool): (r: Value)
    ensures r == Sym("t") || r == Nil
    ensures IsTrue(r) <==> b
  {
    if b then Sym("t") else Nil
  }

  function Car(x: Value): (r: Result<Value, VmError>)
    ensures r.Ok? <==> x.Pair?
    ensures r.Ok? ==> Pair(r.value, x.cdr) == x
    ensures r.Err? ==> r.error == NotAPair
  {
    if x.Pair? then Ok(x.car) else Err(NotAPair)
  }

  function Cdr(x: Value): (r: Result<Value, VmError>)
    ensures r.Ok? <==> x.Pair?
    ensures r.Ok? ==> Pair(x.car, r.value) == x
    ensures r.Err? ==> r.error == NotAPair
  {
    if x.Pair? then Ok(x.cdr) else Err(NotAPair)
  }

  /**
   * `+`: integer sum, string concatenation, or tuple concatenation with an
   * empty tuple, which gives back the other operand (a pair or nil);
   * anything else is a host type error.
   */
  function Add(x: Value, y: Value): (r: Result<Value, VmError>)
    ensures r.Ok? <==> (x.Int? && y.Int?) || (x.Str? && y.Str?) || (x == Nil && (y == Nil || y.Pair?)) || (x.Pair? && y == Nil)
    ensures r.Err? ==> r.error == BuiltinType
    ensures r.Ok? && x.Int? ==> r.value.Int? && r.value.val - y.val == x.val
    ensures r.Ok? && x.Str? ==> r.value.Str? && |r.value.text| == |x.text| + |y.text| && r.value.text[..|x.text|] == x.text && r.value.text[|x.text|..] == y.text
    ensures r.Ok? && x == Nil ==> r.value == y
    ensures r.Ok? && y == Nil ==> r.value == x
  {
    if x.Int? && y.Int? then Ok(Int(x.val + y.val))
    else if x.Str? && y.Str? then Ok(Str(x.text + y.text))
    else if x == Nil && (y == Nil || y.Pair?) then Ok(y)
    else if x.Pair? && y == Nil then Ok(x)
    else Err(BuiltinType)
  }

  /** `-`: integer difference only. */
  function Sub(x: Value, y: Value): (r: Result<Value, VmError>)
    ensures r.Ok? <==> x.Int? && y.Int?
    ensures r.Err? ==> r.error == BuiltinType
    ensures r.Ok? ==> r.value.Int? && r.value.val + y.val == x.val
  {
    if x.Int? && y.Int? then Ok(Int(x.val - y.val)) else Err(BuiltinType)
  }

  /** How many positional arguments the host function behind each builtin takes. */
  function Arity(b: Builtin): nat {
    match b
    case ConsFn => 2
    case EqP => 2
    case AddFn => 2
    case SubFn => 2
    case _ => 1
  }

  predicate IsPredicate(b: Builtin) {
    b == SymbolP || b == ConsP || b == AtomP || b == EqP
  }

  /** Calling a builtin with positional arguments, as `func(*args)` does. */
  function ApplyBuiltin(b: Builtin, args: seq<Value>): (r: Result<Value, VmError>)
    ensures |args| != Arity(b) ==> r == Err(BuiltinArity)
    ensures IsPredicate(b) && |args| == Arity(b) ==> r.Ok? && (r.value == Sym("t") || r.value == Nil)
    ensures b == ConsFn && |args| == 2 ==> r == Ok(Pair(args[0], args[1]))
    ensures b == CarFn && |args| == 1 ==> r == Car(args[0])
    ensures b == CdrFn && |args| == 1 ==> r == Cdr(args[0])
    ensures b == SymbolP && |args| == 1 ==> (r == Ok(Sym("t")) <==> args[0].Sym?)
    ensures b == ConsP && |args| == 1 ==> (r == Ok(Sym("t")) <==> args[0].Pair?)
    ensures b == AtomP && |args| == 1 ==> (r == Ok(Sym("t")) <==> !args[0].Pair?)
    ensures b == EqP && |args| == 2 ==> (r == Ok(Sym("t")) <==> args[0] == args[1])
    ensures b == AddFn && |args| == 2 ==> r == Add(args[0], args[1])
    ensures b == SubFn && |args| == 2 ==> r == Sub(args[0], args[1])
  {
    if |args| != Arity(b) then Err(BuiltinArity)
    else match b
      case ConsFn => Ok(Pair(args[0], args[1]))
      case CarFn => Car(args[0])
      case CdrFn => Cdr(args[0])
      case SymbolP => Ok(Truthify(args[0].Sym?))
      case ConsP => Ok(Truthify(args[0].Pair?))
      case AtomP => Ok(Truthify(!args[0].Pair?))
      case EqP => Ok(Truthify(args[0] == args[1]))
      case AddFn => Add(args[0], args[1])
      case SubFn => Sub(args[0], args[1])
  }

  /** The global table a fresh machine starts with. */
  function MakeGlobals(): (g: map<string, Value>)
    ensures g.Keys == {"apply", "cons", "car", "cdr", "symbol?", "cons?", "atom?", "eq?", "+", "-"}
  {
    map["apply" := ApplyMarker,
        "cons" := Native(ConsFn),
        "car" := Native(CarFn),
        "cdr" := Native(CdrFn),
        "symbol?" := Native(SymbolP),
        "cons?" := Native(ConsP),
        "atom?" := Native(AtomP),
        "eq?" := Native(EqP),
        "+" := Native(AddFn),
        "-" := Native(SubFn)]
  }

  /** The name each builtin is bound under in a fresh table. */
  function BuiltinName(b: Builtin): string {
    match b
    case ConsFn => "cons"
    case CarFn => "car"
    case CdrFn => "cdr"
    case SymbolP => "symbol?"
    case ConsP => "cons?"
    case AtomP => "atom?"
    case EqP => "eq?"
    case AddFn => "+"
    case SubFn => "-"
  }

  /** In a fresh table, `apply` is the marker and every builtin sits under its own name. */
  lemma FreshGlobalsBindings()
    ensures "apply" in MakeGlobals() && MakeGlobals()["apply"] == ApplyMarker
    ensures forall b :: BuiltinName(b) in MakeGlobals() && MakeGlobals()[BuiltinName(b)] == Native(b)
  {
    var g := MakeGlobals();
    forall b
      ensures BuiltinName(b) in g && g[BuiltinName(b)] == Native(b)
    {
      match b
      case ConsFn => assert g["cons"] == Native(ConsFn);
      case CarFn => assert g["car"] == Native(CarFn);
      case CdrFn => assert g["cdr"] == Native(CdrFn);
      case SymbolP => assert g["symbol?"] == Native(SymbolP);
      case ConsP => assert g["cons?"] == Native(ConsP);
      case AtomP => assert g["atom?"] == Native(AtomP);
      case EqP => assert g["eq?"] == Native(EqP);
      case AddFn => assert g["+"] == Native(AddFn);
      case SubFn => assert g["-"] == Native(SubFn);
    }
  }

  /** Only `apply` is bound to the marker; every other name holds a builtin. */
  lemma FreshGlobalsShape()
    ensures forall k :: k in MakeGlobals() ==> (MakeGlobals()[k] == ApplyMarker <==> k == "apply")
    ensures forall k :: k in MakeGlobals() && k != "apply" ==> MakeGlobals()[k].Native?
  {
  }
}

=== FILE: vm_facts.dfy ===
/** Properties that relate several steps of the machine, or a step to its inverse. */
module VmFacts {
  import opened Wrappers
  import opened Sexp
  import opened VmBuiltins
  import opened Vm

  /** The one-operand instruction `(op x)`. */
  function Instr1(op: string, x: Value): Value {
    Pair(Sym(op), Pair(x, Nil))
  }

  /** The two-operand instruction `(op x y)`. */
  function Instr2(op: string, x: Value, y: Value): Value {
    Pair(Sym(op), Pair(x, Pair(y, Nil)))
  }

  /** The three-operand instruction `(op x y z)`. */
  function Instr3(op: string, x: Value, y: Value, z: Value): Value {
    Pair(Sym(op), Pair(x, Pair(y, Pair(z, Nil))))
  }

  /** A callee that finishes with `v` on top of the continuation its caller saved is back where the caller left off. */
  lemma ResumeInvertsPushCont(t: Thread, v: Value, calleeEnv: seq<Value>)
    requires !InstrsFalsy(t.instrs)
    ensures var u := Thread(Nil, PushCont(t) + [Val(v)], calleeEnv, t.globals);
      !IsDone(u) && Step(u) == Ok(Thread(t.instrs, t.data + [Val(v)], t.env, t.globals))
  {
    var u := Thread(Nil, PushCont(t) + [Val(v)], calleeEnv, t.globals);
    assert u.data[..|u.data| - 2] == t.data;
  }

  /** `pop` undoes `push`. */
  lemma PopUndoesPush(t: Thread, v: Value)
    ensures ExecPush(t, [v]).Ok? && ExecPop(ExecPush(t, [v]).value, []) == Ok(t)
  {
    assert (t.data + [Val(v)])[..|t.data|] == t.data;
  }

  /** A step on a well-formed instruction runs that instruction's opcode on its operands. */
  lemma StepRunsInstr(t: Thread, op: string, args: seq<Value>, rest: Value)
    requires t.instrs == Pair(Pair(Sym(op), Consify(args)), rest)
    ensures !IsDone(t) && Step(t) == Exec(t.(instrs := rest), op, args)
  {
    IterConsify(args);
  }

  /** `call n` with `n >= 1`: the `n` top entries are the arguments in push order, the entry below them the function. */
  lemma CallTakesTopN(rest: Value, base: seq<Entry>, f: Entry, xs: seq<Entry>, env: seq<Value>, g: Globals)
    requires |xs| >= 1
    ensures var t := Thread(Pair(Instr1("call", Int(|xs|)), rest), base + [f] + xs, env, g);
      !IsDone(t) && Step(t) == Call(Thread(rest, base, env, g), f, xs)
  {
    var t := Thread(Pair(Instr1("call", Int(|xs|)), rest), base + [f] + xs, env, g);
    var t' := t.(instrs := rest);
    var k := |t.data| - |xs| - 1;
    assert t.data[..k] == base;
    assert t.data[k] == f;
    assert t.data[k + 1..] == xs;
    assert Consify([Int(|xs|)]) == Pair(Int(|xs|), Nil);
    StepRunsInstr(t, "call", [Int(|xs|)], rest);
    assert ExecCall(t', [Int(|xs|)]) == Call(Thread(rest, base, env, g), f, xs);
  }

  /** `call 0` takes the whole stack as arguments and then finds no function. */
  lemma CallZeroUnderflows(rest: Value, data: seq<Entry>, env: seq<Value>, g: Globals)
    ensures var t := Thread(Pair(Instr1("call", Int(0)), rest), data, env, g);
      !IsDone(t) && Step(t) == Err(StackUnderflow)
  {
    assert IterConsList(Pair(Int(0), Nil)) == Some([Int(0)]) by {
      IterConsify([Int(0)]);
    }
  }

  function Markers(k: nat): (ms: seq<Entry>)
    ensures |ms| == k && forall i :: 0 <= i < k ==> ms[i] == Val(ApplyMarker)
  {
    seq(k, i => Val(ApplyMarker))
  }

  /** A chain of `apply` markers strips one leading argument per marker. */
  lemma {:induction false} ApplyChain(k: nat, g: Entry, ys: seq<Entry>)
    ensures Unwrap(Val(ApplyMarker), Markers(k) + [g] + ys) == Unwrap(g, ys)
  {
    var xs := Markers(k) + [g] + ys;
    if k == 0 {
      assert xs[1..] == ys;
    } else {
      assert xs[0] == Val(ApplyMarker);
      assert xs[1..] == Markers(k - 1) + [g] + ys;
      ApplyChain(k - 1, g, ys);
    }
  }

  /** Calling `apply` with `[f, a1..ak]` is calling `f` with `[a1..ak]`; the arguments are not unpacked from a list. */
  lemma ApplyIsTransparent(t: Thread, f: Entry, ys: seq<Entry>)
    ensures Call(t, Val(ApplyMarker), [f] + ys) == Call(t, f, ys)
  {
    var xs := [f] + ys;
    assert xs[1..] == ys;
    assert Unwrap(Val(ApplyMarker), xs) == Unwrap(f, ys);
  }

  /** `apply` with no arguments at all is an error. */
  lemma ApplyWithNothing(t: Thread)
    ensures Call(t, Val(ApplyMarker), []) == Err(ApplyWithoutArgs)
  {
  }

  /** A call in tail position saves no continuation: the caller's stack is passed on unchanged. */
  lemma TailCallSavesNothing(t: Thread, c: Value, args: seq<Value>)
    requires c.Closure? && InstrsFalsy(t.instrs)
    requires c.arity <= |args| && (c.hasRest || |args| == c.arity)
    ensures CallClosure(t, c, args).Ok? && CallClosure(t, c, args).value.data == t.data
  {
  }

  /** `set-global s` followed by `get-global s` pushes a second copy of the value on top. */
  lemma SetThenGet(rest: Value, data: seq<Entry>, env: seq<Value>, g: Globals, name: string, v: Value)
    ensures var t := Thread(Pair(Instr1("set-global", Sym(name)), Pair(Instr1("get-global", Sym(name)), rest)), data + [Val(v)], env, g);
      !IsDone(t) && Step(t).Ok? && !IsDone(Step(t).value) &&
      Step(Step(t).value) == Ok(Thread(rest, data + [Val(v), Val(v)], env, g[name := v]))
  {
    IterConsify([Sym(name)]);
    var t := Thread(Pair(Instr1("set-global", Sym(name)), Pair(Instr1("get-global", Sym(name)), rest)), data + [Val(v)], env, g);
    var t1 := Thread(Pair(Instr1("get-global", Sym(name)), rest), data + [Val(v)], env, g[name := v]);
    assert Step(t) == Ok(t1);
    assert data + [Val(v)] + [Val(v)] == data + [Val(v), Val(v)];
  }

  /** Late binding: `get-global` reads the table at lookup time, so the same stream sees a rebinding made before it runs. */
  lemma GetGlobalIsLate(rest: Value, data: seq<Entry>, env: seq<Value>, g: Globals, name: string, v: Value)
    ensures var t := Thread(Pair(Instr1("get-global", Sym(name)), rest), data, env, g[name := v]);
      !IsDone(t) && Step(t) == Ok(Thread(rest, data + [Val(v)], env, g[name := v]))
  {
    IterConsify([Sym(name)]);
  }

  /** Binding a name leaves every other binding as it was. */
  lemma SetGlobalIsLocal(g: Globals, s: string, v: Value, other: string)
    requires other != s
    ensures SetGlobal(g, Sym(s), v).Ok?
    ensures GetGlobal(SetGlobal(g, Sym(s), v).value, Sym(other)) == GetGlobal(g, Sym(other))
    ensures GetGlobal(SetGlobal(g, Sym(s), v).value, Sym(s)) == Ok(v)
  {
  }

  lemma {:induction false} IterateFuelMonotone(step: Thread --> Result<Thread, VmError>, t: Thread, fuel: nat, extra: nat)
    requires forall u :: !IsDone(u) ==> step.requires(u)
    requires !Iterate(step, t, fuel).Exhausted?
    ensures Iterate(step, t, fuel + extra) == Iterate(step, t, fuel)
    decreases fuel
  {
    if !IsDone(t) && fuel > 0 {
      match step(t)
      case Err(_) =>
      case Ok(t') =>
        IterateFuelMonotone(step, t', fuel - 1, extra);
    }
  }

  /** More fuel does not change a run that already stopped. */
  lemma RunFuelMonotone(t: Thread, fuel: nat, extra: nat)
    requires !Run(t, fuel).Exhausted?
    ensures Run(t, fuel + extra) == Run(t, fuel)
  {
    IterateFuelMonotone(Step, t, fuel, extra);
  }

  lemma {:induction false} IterateKeepsBindings(step: Thread --> Result<Thread, VmError>, t: Thread, fuel: nat)
    requires forall u :: !IsDone(u) ==> step.requires(u)
    requires forall u :: !IsDone(u) && step(u).Ok? ==> u.globals.Keys <= step(u).value.globals.Keys
    ensures t.globals.Keys <= GlobalsAfter(Iterate(step, t, fuel)).Keys
    decreases fuel
  {
    if !IsDone(t) && fuel > 0 {
      match step(t)
      case Err(_) =>
      case Ok(t') =>
        IterateKeepsBindings(step, t', fuel - 1);
    }
  }

  /** No run unbinds a global: every name bound at the start is still bound at the end, crash or not. */
  lemma RunKeepsBindings(t: Thread, fuel: nat)
    ensures t.globals.Keys <= GlobalsAfter(Run(t, fuel)).Keys
  {
    IterateKeepsBindings(Step, t, fuel);
  }

  /** A thread that steps to `u` runs on from `u` with one unit of fuel less. */
  lemma RunAdvance(t: Thread, u: Thread, fuel: nat)
    requires !IsDone(t) && Step(t) == Ok(u)
    ensures Run(t, fuel + 1) == Run(u, fuel)
  {
  }

  /** `push x` puts `x` on top and changes nothing else. */
  lemma PushStep(rest: Value, data: seq<Entry>, env: seq<Value>, g: Globals, x: Value)
    ensures var t := Thread(Pair(Instr1("push", x), rest), data, env, g);
      !IsDone(t) && Step(t) == Ok(Thread(rest, data + [Val(x)], env, g))
  {
    IterConsify([x]);
  }

  /** `get-global s` of a bound name pushes its binding. */
  lemma GetGlobalStep(rest: Value, data: seq<Entry>, env: seq<Value>, g: Globals, name: string)
    requires name in g
    ensures var t := Thread(Pair(Instr1("get-global", Sym(name)), rest), data, env, g);
      !IsDone(t) && Step(t) == Ok(Thread(rest, data + [Val(g[name])], env, g))
  {
    IterConsify([Sym(name)]);
  }

  /** Calling a builtin on plain values pushes its result onto the stack below the call. */
  lemma NativeCall(t: Thread, b: Builtin, xs: seq<Entry>)
    requires AllValues(xs) && ApplyBuiltin(b, ValuesOf(xs)).Ok?
    ensures Call(t, Val(Native(b)), xs) == Ok(t.(data := t.data + [Val(ApplyBuiltin(b, ValuesOf(xs)).value)]))
  {
  }

  /** `access n` pushes the `n`th slot of the environment. */
  lemma AccessStep(rest: Value, data: seq<Entry>, env: seq<Value>, g: Globals, n: nat)
    requires n < |env|
    ensures var t := Thread(Pair(Instr1("access", Int(n)), rest), data, env, g);
      !IsDone(t) && Step(t) == Ok(Thread(rest, data + [Val(env[n])], env, g))
  {
    IterConsify([Int(n)]);
  }

  /** `closure arity rest code` pushes a closure over the current environment. */
  lemma ClosureStep(rest: Value, data: seq<Entry>, env: seq<Value>, g: Globals, arity: nat, restFlag: Value, code: Value)
    ensures var t := Thread(Pair(Instr3("closure", Int(arity), restFlag, code), rest), data, env, g);
      !IsDone(t) && Step(t) == Ok(Thread(rest, data + [Val(Closure(arity, restFlag != Nil, code, env))], env, g))
  {
    var ops := [Int(arity), restFlag, code];
    assert ops[1..] == [restFlag, code] && [restFlag, code][1..] == [code] && [code][1..] == [];
    assert Consify([code]) == Pair(code, Nil);
    assert Consify(ops) == Pair(Int(arity), Pair(restFlag, Pair(code, Nil)));
    IterConsify(ops);
  }

  /** `if then else` pops the condition and enters the branch it selects, saving the rest of the stream. */
  lemma IfStep(rest: Value, data: seq<Entry>, env: seq<Value>, g: Globals, c: Value, th: Value, el: Value)
    ensures var t := Thread(Pair(Instr2("if", th, el), rest), data + [Val(c)], env, g);
      !IsDone(t) && Step(t) == Ok(Thread(if c != Nil then th else el, PushCont(Thread(rest, data, env, g)), env, g))
  {
    var ops := [th, el];
    assert ops[1..][1..] == [];
    assert Consify(ops) == Pair(th, Pair(el, Nil));
    IterConsify(ops);
    assert (data + [Val(c)])[..|data|] == data;
  }

  /** Calling a closure on plain values is entering it, with the same outcome, error or not. */
  lemma ClosureCall(t: Thread, c: Value, xs: seq<Entry>)
    requires c.Closure? && AllValues(xs)
    ensures Call(t, Val(c), xs) == CallClosure(t, c, ValuesOf(xs))
  {
  }
}

=== FILE: vm_scenarios.dfy ===
/**
 * Whole runs of small instruction streams. Each run is taken apart into
 * pieces of one or two steps, glued with `RunAdvance`.
 */
module VmScenarios {
  import opened Wrappers
  import opened Sexp
  import opened VmBuiltins
  import opened Vm
  import opened VmFacts

  // ---------- `+` applied to 3 and 4 ----------

  function AddTail(): Value {
    Pair(Instr1("push", Int(4)), Pair(Instr1("call", Int(2)), Nil))
  }

  /** `(get-global +) (push 3) (push 4) (call 2)`: the function goes below its arguments. */
  function AddProgram(): Value {
    Pair(Instr1("get-global", Sym("+")), Pair(Instr1("push", Int(3)), AddTail()))
  }

  lemma AddStep(g: Globals)
    ensures var t := Thread(Pair(Instr1("call", Int(2)), Nil), [Val(Native(AddFn)), Val(Int(3)), Val(Int(4))], [], g);
      !IsDone(t) && Step(t) == Ok(Thread(Nil, [Val(Int(7))], [], g))
  {
    var plus := Val(Native(AddFn));
    var xs := [Val(Int(3)), Val(Int(4))];
    CallTakesTopN(Nil, [], plus, xs, [], g);
    assert [] + [plus] + xs == [plus, Val(Int(3)), Val(Int(4))];
    var u := Thread(Nil, [], [], g);
    assert ValuesOf(xs) == [Int(3), Int(4)];
    assert ApplyBuiltin(AddFn, [Int(3), Int(4)]) == Ok(Int(7));
    NativeCall(u, AddFn, xs);
    assert Call(u, plus, xs) == Ok(u.(data := u.data + [Val(ApplyBuiltin(AddFn, ValuesOf(xs)).value)]));
    assert u.(data := u.data + [Val(Int(7))]) == Thread(Nil, [Val(Int(7))], [], g);
  }

  lemma AddFirstTwo(g: Globals)
    requires "+" in g && g["+"] == Native(AddFn)
    ensures Run(Thread(AddProgram(), [], [], g), 4) == Run(Thread(AddTail(), [Val(Native(AddFn)), Val(Int(3))], [], g), 2)
  {
    var plus := Val(Native(AddFn));
    var i1 := Pair(Instr1("push", Int(3)), AddTail());
    var t0 := Thread(AddProgram(), [], [], g);
    var t1 := Thread(i1, [plus], [], g);
    var t2 := Thread(AddTail(), [plus, Val(Int(3))], [], g);
    GetGlobalStep(i1, [], [], g, "+");
    assert [] + [plus] == t1.data;
    RunAdvance(t0, t1, 3);
    PushStep(AddTail(), [plus], [], g, Int(3));
    assert [plus] + [Val(Int(3))] == t2.data;
    RunAdvance(t1, t2, 2);
  }

  lemma AddLastTwo(g: Globals)
    ensures Run(Thread(AddTail(), [Val(Native(AddFn)), Val(Int(3))], [], g), 2) == Halted(Thread(Nil, [Val(Int(7))], [], g))
  {
    var plus := Val(Native(AddFn));
    var i3 := Pair(Instr1("call", Int(2)), Nil);
    var t2 := Thread(AddTail(), [plus, Val(Int(3))], [], g);
    var t3 := Thread(i3, [plus, Val(Int(3)), Val(Int(4))], [], g);
    var t4 := Thread(Nil, [Val(Int(7))], [], g);
    PushStep(i3, t2.data, [], g, Int(4));
    assert t2.data + [Val(Int(4))] == t3.data;
    RunAdvance(t2, t3, 1);
    AddStep(g);
    RunAdvance(t3, t4, 0);
  }

  /** On any table that binds `+` to the builtin, the stream leaves 7. */
  lemma AddThreeFour(g: Globals)
    requires "+" in g && g["+"] == Native(AddFn)
    ensures RunExpr(g, AddProgram(), [], [], 4) == (Ok(Val(Int(7))), g)
  {
    AddFirstTwo(g);
    AddLastTwo(g);
  }

  /** A fresh machine runs it to 7. */
  lemma FreshMachineAddsThreeFour()
    ensures RunExpr(MakeGlobals(), AddProgram(), [], [], 4).0 == Ok(Val(Int(7)))
  {
    AddThreeFour(MakeGlobals());
  }

  // ---------- the function pushed last ----------

  function LateFnTail(): Value {
    Pair(Instr1("get-global", Sym("+")), Pair(Instr1("call", Int(2)), Nil))
  }

  /** `(push 3) (push 4) (get-global +) (call 2)`. */
  function LateFnProgram(): Value {
    Pair(Instr1("push", Int(3)), Pair(Instr1("push", Int(4)), LateFnTail()))
  }

  lemma LateFnFirstTwo(g: Globals)
    ensures Run(Thread(LateFnProgram(), [], [], g), 4) == Run(Thread(LateFnTail(), [Val(Int(3)), Val(Int(4))], [], g), 2)
  {
    var i1 := Pair(Instr1("push", Int(4)), LateFnTail());
    var t0 := Thread(LateFnProgram(), [], [], g);
    var t1 := Thread(i1, [Val(Int(3))], [], g);
    var t2 := Thread(LateFnTail(), [Val(Int(3)), Val(Int(4))], [], g);
    PushStep(i1, [], [], g, Int(3));
    assert [] + [Val(Int(3))] == t1.data;
    RunAdvance(t0, t1, 3);
    PushStep(LateFnTail(), t1.data, [], g, Int(4));
    assert t1.data + [Val(Int(4))] == t2.data;
    RunAdvance(t1, t2, 2);
  }

  lemma LateFnLastTwo(g: Globals)
    requires "+" in g && g["+"] == Native(AddFn)
    ensures Run(Thread(LateFnTail(), [Val(Int(3)), Val(Int(4))], [], g), 2) == Crashed(NotCallable, g)
  {
    var plus := Val(Native(AddFn));
    var i3 := Pair(Instr1("call", Int(2)), Nil);
    var t2 := Thread(LateFnTail(), [Val(Int(3)), Val(Int(4))], [], g);
    var t3 := Thread(i3, [Val(Int(3)), Val(Int(4)), plus], [], g);
    GetGlobalStep(i3, t2.data, [], g, "+");
    assert t2.data + [plus] == t3.data;
    RunAdvance(t2, t3, 1);
    CallTakesTopN(Nil, [], Val(Int(3)), [Val(Int(4)), plus], [], g);
    assert [] + [Val(Int(3))] + [Val(Int(4)), plus] == t3.data;
    assert Step(t3) == Err(NotCallable);
  }

  /** With the function pushed last, `call 2` finds the integer 3 where the function should be. */
  lemma FunctionPushedLastIsNotCalled(g: Globals)
    requires "+" in g && g["+"] == Native(AddFn)
    ensures RunExpr(g, LateFnProgram(), [], [], 4) == (Err(NotCallable), g)
  {
    LateFnFirstTwo(g);
    LateFnLastTwo(g);
  }

  // ---------- `if` in tail position ----------

  function IfProgram(c: Value): Value {
    Pair(Instr1("push", c), Pair(Instr2("if", Pair(Instr1("push", Int(10)), Nil), Pair(Instr1("push", Int(20)), Nil)), Nil))
  }

  /** The branch the condition selects runs, and nothing is saved to return to: any non-nil condition selects `then`. */
  lemma IfPicksBranch(c: Value, g: Globals)
    ensures RunExpr(g, IfProgram(c), [], [], 3) == (Ok(Val(if c != Nil then Int(10) else Int(20))), g)
  {
    var th := Pair(Instr1("push", Int(10)), Nil);
    var el := Pair(Instr1("push", Int(20)), Nil);
    var i1 := Pair(Instr2("if", th, el), Nil);
    var n := if c != Nil then Int(10) else Int(20);
    var t0 := Thread(IfProgram(c), [], [], g);
    var t1 := Thread(i1, [Val(c)], [], g);
    var t2 := Thread(Pair(Instr1("push", n), Nil), [], [], g);
    var t3 := Thread(Nil, [Val(n)], [], g);
    PushStep(i1, [], [], g, c);
    assert [] + [Val(c)] == t1.data;
    RunAdvance(t0, t1, 2);
    IfStep(Nil, [], [], g, c, th, el);
    RunAdvance(t1, t2, 1);
    PushStep(Nil, [], [], g, n);
    assert [] + [Val(n)] == t3.data;
    RunAdvance(t2, t3, 0);
  }

  // ---------- a rest parameter ----------

  function RestBody(): Value {
    Pair(Instr1("access", Int(0)), Nil)
  }

  function RestTail(): Value {
    Pair(Instr1("push", Int(2)), Pair(Instr1("call", Int(2)), Nil))
  }

  /** `(closure 0 t ((access 0))) (push 1) (push 2) (call 2)`. */
  function RestProgram(): Value {
    Pair(Instr3("closure", Int(0), Sym("t"), RestBody()), Pair(Instr1("push", Int(1)), RestTail()))
  }

  lemma RestCallStep(g: Globals)
    ensures var c := Closure(0, true, RestBody(), []);
      var t := Thread(Pair(Instr1("call", Int(2)), Nil), [Val(c), Val(Int(1)), Val(Int(2))], [], g);
      !IsDone(t) && Step(t) == Ok(Thread(RestBody(), [], [Pair(Int(1), Pair(Int(2), Nil))], g))
  {
    var c := Closure(0, true, RestBody(), []);
    var lst := Pair(Int(1), Pair(Int(2), Nil));
    var xs := [Val(Int(1)), Val(Int(2))];
    CallTakesTopN(Nil, [], Val(c), xs, [], g);
    assert [] + [Val(c)] + xs == [Val(c), Val(Int(1)), Val(Int(2))];
    var u := Thread(Nil, [], [], g);
    ClosureCall(u, c, xs);
    assert ValuesOf(xs) == [Int(1), Int(2)];
    var args := [Int(1), Int(2)];
    assert args[0..] == args && args[1..] == [Int(2)] && [Int(2)][1..] == [];
    assert Consify([Int(2)]) == Pair(Int(2), Nil);
    assert Consify(args) == lst;
    assert BindArgs(0, true, [], args) == [lst];
    assert CallClosure(u, c, args) == Ok(Thread(RestBody(), [], [lst], g));
  }

  lemma RestFirstTwo(g: Globals)
    ensures var c := Closure(0, true, RestBody(), []);
      Run(Thread(RestProgram(), [], [], g), 5) == Run(Thread(RestTail(), [Val(c), Val(Int(1))], [], g), 3)
  {
    var c := Closure(0, true, RestBody(), []);
    var i1 := Pair(Instr1("push", Int(1)), RestTail());
    var t0 := Thread(RestProgram(), [], [], g);
    var t1 := Thread(i1, [Val(c)], [], g);
    var t2 := Thread(RestTail(), [Val(c), Val(Int(1))], [], g);
    ClosureStep(i1, [], [], g, 0, Sym("t"), RestBody());
    assert [] + [Val(c)] == t1.data;
    RunAdvance(t0, t1, 4);
    PushStep(RestTail(), t1.data, [], g, Int(1));
    assert t1.data + [Val(Int(1))] == t2.data;
    RunAdvance(t1, t2, 3);
  }

  lemma RestLastThree(g: Globals)
    ensures var c := Closure(0, true, RestBody(), []);
      var lst := Pair(Int(1), Pair(Int(2), Nil));
      Run(Thread(RestTail(), [Val(c), Val(Int(1))], [], g), 3) == Halted(Thread(Nil, [Val(lst)], [lst], g))
  {
    var c := Closure(0, true, RestBody(), []);
    var lst := Pair(Int(1), Pair(Int(2), Nil));
    var i3 := Pair(Instr1("call", Int(2)), Nil);
    var t2 := Thread(RestTail(), [Val(c), Val(Int(1))], [], g);
    var t3 := Thread(i3, [Val(c), Val(Int(1)), Val(Int(2))], [], g);
    var t4 := Thread(RestBody(), [], [lst], g);
    var t5 := Thread(Nil, [Val(lst)], [lst], g);
    PushStep(i3, t2.data, [], g, Int(2));
    assert t2.data + [Val(Int(2))] == t3.data;
    RunAdvance(t2, t3, 2);
    RestCallStep(g);
    RunAdvance(t3, t4, 1);
    AccessStep(Nil, [], [lst], g, 0);
    assert [] + [Val(lst)] == t5.data;
    RunAdvance(t4, t5, 0);
  }

  /** A closure of arity 0 with a rest parameter receives all its arguments as one list. */
  lemma RestParameterGathers(g: Globals)
    ensures RunExpr(g, RestProgram(), [], [], 5) == (Ok(Val(Pair(Int(1), Pair(Int(2), Nil)))), g)
  {
    RestFirstTwo(g);
    RestLastThree(g);
  }

  // ---------- a call that is not in tail position ----------

  function IdBody(): Value {
    Pair(Instr1("access", Int(0)), Nil)
  }

  function ConsReturn(): Value {
    Pair(Instr1("call", Int(2)), Nil)
  }

  function ConsCall(): Value {
    Pair(Instr1("call", Int(1)), ConsReturn())
  }

  function ConsMiddle(): Value {
    Pair(Instr3("closure", Int(1), Nil, IdBody()), Pair(Instr1("push", Int(5)), ConsCall()))
  }

  /** `(get-global cons) (push 9) (closure 1 () ((access 0))) (push 5) (call 1) (call 2)`. */
  function ConsProgram(): Value {
    Pair(Instr1("get-global", Sym("cons")), Pair(Instr1("push", Int(9)), ConsMiddle()))
  }

  lemma IdentityCallStep(rest: Value, below: seq<Entry>, g: Globals)
    requires rest.Pair?
    ensures var c := Closure(1, false, IdBody(), []);
      var t := Thread(Pair(Instr1("call", Int(1)), rest), below + [Val(c), Val(Int(5))], [], g);
      !IsDone(t) && Step(t) == Ok(Thread(IdBody(), below + [Cont(rest, [])], [Int(5)], g))
  {
    var c := Closure(1, false, IdBody(), []);
    var xs := [Val(Int(5))];
    CallTakesTopN(rest, below, Val(c), xs, [], g);
    assert below + [Val(c)] + xs == below + [Val(c), Val(Int(5))];
    var u := Thread(rest, below, [], g);
    ClosureCall(u, c, xs);
    assert ValuesOf(xs) == [Int(5)];
    assert BindArgs(1, false, [], [Int(5)]) == [Int(5)];
  }

  lemma ConsCallStep(g: Globals)
    ensures var t := Thread(ConsReturn(), [Val(Native(ConsFn)), Val(Int(9)), Val(Int(5))], [], g);
      !IsDone(t) && Step(t) == Ok(Thread(Nil, [Val(Pair(Int(9), Int(5)))], [], g))
  {
    var k := Val(Native(ConsFn));
    var xs := [Val(Int(9)), Val(Int(5))];
    CallTakesTopN(Nil, [], k, xs, [], g);
    assert [] + [k] + xs == [k, Val(Int(9)), Val(Int(5))];
    var u := Thread(Nil, [], [], g);
    assert ValuesOf(xs) == [Int(9), Int(5)];
    NativeCall(u, ConsFn, xs);
    assert Call(u, k, xs) == Ok(u.(data := u.data + [Val(ApplyBuiltin(ConsFn, ValuesOf(xs)).value)]));
    assert u.(data := u.data + [Val(Pair(Int(9), Int(5)))]) == Thread(Nil, [Val(Pair(Int(9), Int(5)))], [], g);
  }

  lemma ConsFirstTwo(g: Globals)
    requires "cons" in g && g["cons"] == Native(ConsFn)
    ensures Run(Thread(ConsProgram(), [], [], g), 8) == Run(Thread(ConsMiddle(), [Val(Native(ConsFn)), Val(Int(9))], [], g), 6)
  {
    var k := Val(Native(ConsFn));
    var i1 := Pair(Instr1("push", Int(9)), ConsMiddle());
    var t0 := Thread(ConsProgram(), [], [], g);
    var t1 := Thread(i1, [k], [], g);
    var t2 := Thread(ConsMiddle(), [k, Val(Int(9))], [], g);
    GetGlobalStep(i1, [], [], g, "cons");
    assert [] + [k] == t1.data;
    RunAdvance(t0, t1, 7);
    PushStep(ConsMiddle(), t1.data, [], g, Int(9));
    assert t1.data + [Val(Int(9))] == t2.data;
    RunAdvance(t1, t2, 6);
  }

  lemma ConsSecondTwo(g: Globals)
    ensures var k := Val(Native(ConsFn));
      var c := Closure(1, false, IdBody(), []);
      Run(Thread(ConsMiddle(), [k, Val(Int(9))], [], g), 6) == Run(Thread(ConsCall(), [k, Val(Int(9)), Val(c), Val(Int(5))], [], g), 4)
  {
    var k := Val(Native(ConsFn));
    var c := Closure(1, false, IdBody(), []);
    var i3 := Pair(Instr1("push", Int(5)), ConsCall());
    var t2 := Thread(ConsMiddle(), [k, Val(Int(9))], [], g);
    var t3 := Thread(i3, [k, Val(Int(9)), Val(c)], [], g);
    var t4 := Thread(ConsCall(), [k, Val(Int(9)), Val(c), Val(Int(5))], [], g);
    ClosureStep(i3, t2.data, [], g, 1, Nil, IdBody());
    assert t2.data + [Val(c)] == t3.data;
    RunAdvance(t2, t3, 5);
    PushStep(ConsCall(), t3.data, [], g, Int(5));
    assert t3.data + [Val(Int(5))] == t4.data;
    RunAdvance(t3, t4, 4);
  }

  lemma ConsEnterAndLeave(g: Globals)
    ensures var k := Val(Native(ConsFn));
      var c := Closure(1, false, IdBody(), []);
      Run(Thread(ConsCall(), [k, Val(Int(9)), Val(c), Val(Int(5))], [], g), 4)
        == Run(Thread(Nil, [k, Val(Int(9)), Cont(ConsReturn(), []), Val(Int(5))], [Int(5)], g), 2)
  {
    var k := Val(Native(ConsFn));
    var c := Closure(1, false, IdBody(), []);
    var t4 := Thread(ConsCall(), [k, Val(Int(9)), Val(c), Val(Int(5))], [], g);
    var t5 := Thread(IdBody(), [k, Val(Int(9)), Cont(ConsReturn(), [])], [Int(5)], g);
    var t6 := Thread(Nil, [k, Val(Int(9)), Cont(ConsReturn(), []), Val(Int(5))], [Int(5)], g);
    IdentityCallStep(ConsReturn(), [k, Val(Int(9))], g);
    assert [k, Val(Int(9))] + [Val(c), Val(Int(5))] == t4.data;
    assert [k, Val(Int(9))] + [Cont(ConsReturn(), [])] == t5.data;
    RunAdvance(t4, t5, 3);
    AccessStep(Nil, t5.data, [Int(5)], g, 0);
    assert t5.data + [Val(Int(5))] == t6.data;
    RunAdvance(t5, t6, 2);
  }

  lemma ConsResumeAndFinish(g: Globals)
    ensures var k := Val(Native(ConsFn));
      Run(Thread(Nil, [k, Val(Int(9)), Cont(ConsReturn(), []), Val(Int(5))], [Int(5)], g), 2)
        == Halted(Thread(Nil, [Val(Pair(Int(9), Int(5)))], [], g))
  {
    var k := Val(Native(ConsFn));
    var t6 := Thread(Nil, [k, Val(Int(9)), Cont(ConsReturn(), []), Val(Int(5))], [Int(5)], g);
    var t7 := Thread(ConsReturn(), [k, Val(Int(9)), Val(Int(5))], [], g);
    var t8 := Thread(Nil, [Val(Pair(Int(9), Int(5)))], [], g);
    var caller := Thread(ConsReturn(), [k, Val(Int(9))], [], g);
    ResumeInvertsPushCont(caller, Int(5), [Int(5)]);
    assert PushCont(caller) + [Val(Int(5))] == t6.data;
    assert caller.data + [Val(Int(5))] == t7.data;
    RunAdvance(t6, t7, 1);
    ConsCallStep(g);
    RunAdvance(t7, t8, 0);
  }

  /**
   * A call that is not in tail position saves the rest of the stream; when
   * the callee's stream runs out, its value is handed back there.
   */
  lemma ContinuationResumes(g: Globals)
    requires "cons" in g && g["cons"] == Native(ConsFn)
    ensures RunExpr(g, ConsProgram(), [], [], 8) == (Ok(Val(Pair(Int(9), Int(5)))), g)
  {
    ConsFirstTwo(g);
    ConsSecondTwo(g);
    ConsEnterAndLeave(g);
    ConsResumeAndFinish(g);
  }
}

=== FILE: wrappers.dfy ===
/** Failure-carrying results, usable with `:-`. */
module Wrappers {

  datatype Option<+T> = None | Some(value: T) {
    predicate IsFailure() { None? }

    function PropagateFailure<U>(): Option<U>
      requires None?
    {
      None
    }

    function Extract(): T
      requires Some?
    {
      value
    }
  }

  datatype Result<+T, +E> = Ok(value: T) | Err(error: E) {
    predicate IsFailure() { Err? }

    function PropagateFailure<U>(): Result<U, E>
      requires Err?
    {
      Err(error)
    }

    function Extract(): T
      requires Ok?
    {
      value
    }
  }
}
